=== FILE: README.md ===
# Hotel booking front end — a Dafny model of its rules

The hotel-booking front end ships three partly divergent implementations of the same site:

- the static pages' scripts: `booking.js`, `language.js` and the widget library `components.js`;
- the vanilla home-page script `main.js` with its helpers in `utils.js`;
- a React home page, `page.tsx`.

Under the DOM wiring sits a set of small, sequential rules. This project models those rules as immutable datatypes and pure transitions, and proves their properties. The rules are:

- booking arithmetic and date validation;
- the two-thumb price filter;
- the guest counters and their label;
- the single-selection widgets: gallery, slider, testimonials, tabs, accordion, spinner and favourites;
- translation lookup, substitution and the language switch;
- the string validators: e-mail, phone, HTML escaping, and the form validator.

Modelling choices:

- Dates are calendar day numbers, and a missing date is `Booking.Missing`.
- Browser storage is a value threaded through the operations.
- The clock, the random booking id and the mouse position are parameters.
- JavaScript's own semantics are written out where they decide an outcome:
  - the truncating `%`, and the `NaN` index it gives on an empty gallery;
  - `parseInt`, `trim` and truthiness;
  - `===` between a number and a string;
  - `o && o[k]` against `o?.[k]`;
  - `String.prototype.replace` with a string pattern, including its `$` patterns;
  - the `TypeError` of calling `replace` on an object.

Modules:

| module | file | what it holds |
|---|---|---|
| `Wrappers` | wrappers.dfy | `Option` |
| `Text` | text.dfy | JavaScript whitespace, `trim`, decimal rendering and `parseInt` |
| `Selection` | selection.dfy | boolean flag rows with one or no flag set, JavaScript `%`, modular next/previous |
| `Booking` | booking.dfy | `BookingSystem` of the static pages |
| `PriceFilter` | price_filter.dfy | the price-range filter |
| `Guests` | guests.dfy | guest counters and labels in all three versions |
| `Components` | components.dfy | gallery, tabs, accordion, spinner |
| `Patterns` | patterns.dfy | the e-mail and phone regular expressions |
| `FormValidator` | form_validator.dfy | the `FormValidator` component |
| `Utils` | utils.dfy | star rating and HTML escaping |
| `I18n` | i18n.dfy | translation trees, lookups, `translateText`, the language switch |
| `Landing` | landing.dfy | hero slider, testimonials, default dates and deals of the vanilla home page |
| `HomePage` | home_page.dfy | the React home page |

## Model

| member | source | states |
|---|---|---|
| Booking.LoadSearchData | hotel-booking/assets/js/booking.js:21-30 | stored criteria are used as they are; without them, no dates, two adults, no children, one room |
| Booking.CalculateNights | hotel-booking/assets/js/booking.js:236-245 | 0 when a date is missing, otherwise the distance between the two days in either order |
| Booking.NightsSymmetric | hotel-booking/assets/js/booking.js:236-245 | swapping check-in and check-out does not change the night count; the utility `calculateNights` (workspace/hotel-booking/js/utils.js, lines 46-55) has the same rule and so the same symmetry |
| Booking.NightsZero | hotel-booking/assets/js/booking.js:236-245 | zero nights exactly when a date is missing or both dates are the same day |
| Booking.ValidateDates | hotel-booking/assets/js/booking.js:70-79 | both dates present, check-in not before today, and check-out strictly after it; every accepted pair books at least one night |
| Booking.ValidDatesGiveNights | hotel-booking/assets/js/booking.js:70-79 | dates that pass validation give check-out minus check-in nights, at least one |
| Booking.InvalidDatesRejected | hotel-booking/assets/js/booking.js:70-79 | a missing date, a check-in before today, or a check-out on or before check-in fails validation |
| Booking.UpdateDateConstraints | hotel-booking/assets/js/booking.js:177-189 | a chosen check-in moves the check-out minimum to the next day; without one nothing changes |
| Booking.SetupDatePickers | hotel-booking/assets/js/booking.js:159-175 | both minimums start at today, then the check-out constraint applies |
| Booking.PickersAllowOnlyValidDates | hotel-booking/assets/js/booking.js:159-189 | any pair of dates the pickers' minimums allow passes `validateDates` |
| Booking.SelectRoom | hotel-booking/assets/js/booking.js:94-114 | the chosen card is the only highlighted one, and its id and parsed price become the selected room |
| Booking.NightlyPrice | hotel-booking/assets/js/booking.js:209 | no selected room, and a room whose price parsed to NaN, price a night at 0; otherwise the room's price |
| Booking.BookingSummary | hotel-booking/assets/js/booking.js:202-234 | subtotal is price times nights, taxes are 15 % of it, the total `total * 1.15` equals subtotal plus taxes, all zero without a room |
| Booking.SummaryExample | hotel-booking/assets/js/booking.js:209-231 | 100 a night for three nights gives 300, 45 and 345 |
| Booking.NewBookingSystem | hotel-booking/assets/js/booking.js:6-11 | the system starts with the loaded criteria and no hotel or room selected |
| Booking.SaveBooking | hotel-booking/assets/js/booking.js:275-279 | the list grows by exactly the new booking, appended after the unchanged earlier ones |
| Booking.ProcessBooking | hotel-booking/assets/js/booking.js:247-269 | without a room: the error and an untouched store; with one: a pending booking carrying the criteria is appended, becomes the current booking, and the page moves to checkout |
| Booking.HandleSearchSubmit | hotel-booking/assets/js/booking.js:43-68 | invalid dates stop with an error and store nothing; valid ones store exactly these criteria, then the search form moves to results without booking and a booking form continues with `processBooking` on the updated store |
| Booking.SubmitWithoutRoomKeepsCriteria | hotel-booking/assets/js/booking.js:54-66 | a booking form with valid dates but no room reports the missing room, yet keeps the stored criteria |
| PriceFilter.DragValue | hotel-booking/assets/js/booking.js:345-346 | a mouse position becomes a price between 0 and 500, with the ends reached outside the track |
| PriceFilter.Drag | hotel-booking/assets/js/booking.js:341-358 | the min thumb sets the min to the value but at most max − 50; the max thumb sets the max to the value but at least min + 50; the other bound stays; nothing happens without a held thumb |
| PriceFilter.InputMin | hotel-booking/assets/js/booking.js:373-377 | the typed min is kept when it lies in [0, max − 50]; a negative one becomes 0, one above max − 50 becomes max − 50 (or 0 when that is negative), and text that is not a number becomes 0 |
| PriceFilter.InputMax | hotel-booking/assets/js/booking.js:381-385 | the typed max is kept when it is at least min + 50, a non-zero one below that becomes exactly min + 50, and 0 or text that is not a number reads as 500 before the same raise |
| PriceFilter.Step | hotel-booking/assets/js/booking.js:341-386 | mouse-down takes hold of a thumb and mouse-up lets go without moving a bound; a move applies the clamped drag of the held thumb, and with no thumb held does nothing; a typed minimum or maximum applies `InputMin` or `InputMax` to its own bound, keeping the other bound and the hold |
| PriceFilter.Run | hotel-booking/assets/js/booking.js:341-386 | no events change nothing, and neither does any run of moves and releases while no thumb is held |
| PriceFilter.StepKeepsSpread | hotel-booking/assets/js/booking.js:341-386 | every mouse or input event keeps the bounds at least 50 apart with the min not negative |
| PriceFilter.RunKeepsSpread | hotel-booking/assets/js/booking.js:307-386 | from the constructor's 0–500, no sequence of events brings the bounds closer than 50 |
| PriceFilter.DragIdempotent | hotel-booking/assets/js/booking.js:348-352 | applying the same drag update twice equals applying it once |
| PriceFilter.MaxNotCapped | hotel-booking/assets/js/booking.js:381-385 | typing 1000 sets the max to 1000, beyond the slider's 500 |
| Guests.CounterClick | hotel-booking/assets/js/booking.js:123-131 | plus adds one; minus subtracts one only from a positive count; a non-negative count stays non-negative |
| Guests.CounterClicks | hotel-booking/assets/js/booking.js:123-131 | a run of plus clicks adds one per click, clicks on neither button change nothing, and no run gains more than one per click |
| Guests.CountersStayNonNegative | workspace/hotel-booking/js/main.js:199-211 | no click sequence drives a counter below zero, and one adult can be clicked down to zero |
| Guests.VanillaGuestLabel | workspace/hotel-booking/js/main.js:218-233 | total guests is adults plus children; the singular guest word exactly for one guest; the singular room word exactly for one room; Arabic words under `ar`; the static booking page (hotel-booking/assets/js/booking.js, lines 138-157) builds its label by the same rules |
| Guests.ReactGuestLabel | src/app/page.tsx:190-191 | "Guest" exactly for one guest in total; the room word is "Rooms" for every count, since a number never strictly equals '1' |
| Guests.LabelsDisagreeOnOneRoom | src/app/page.tsx:190-191 | with one room the vanilla label says "Room" and the React label "Rooms", with the same guest word |
| Components.InitGallery | public/assets/js/components.js:7-46 | the index starts at 0, and with a strip there is one thumbnail per image, only the first active |
| Components.GoToImage | public/assets/js/components.js:84-97 | the index becomes `k` and thumbnail `j` is active exactly when `j == k` |
| Components.NextImage | public/assets/js/components.js:99-102 | an in-range index stays in range; with no images the index becomes NaN |
| Components.PreviousImage | public/assets/js/components.js:104-107 | an in-range index stays in range; with no images the index becomes NaN |
| Components.OnKey | public/assets/js/components.js:72-82 | ArrowLeft steps back, ArrowRight steps forward, and every other key leaves the gallery as it is |
| Components.GalleryNextPrevious | public/assets/js/components.js:99-107 | next shows `(i + 1) mod n` with exactly one thumbnail lit, and previous undoes it |
| Components.ShowTab | public/assets/js/components.js:177-188 | button `j` and pane `j` are active exactly when `j == k` |
| Components.InitTabs | public/assets/js/components.js:166-175 | with at least one button, tab 0 is the only active one; with none, nothing changes |
| Components.ShowTabExactlyOne | public/assets/js/components.js:177-188 | after a click exactly one button, and one pane when the counts match, is active |
| Components.ToggleItem | public/assets/js/components.js:210-230 | at most one item stays open; toggling the open item closes all; toggling a closed one makes it the only open item |
| Components.ToggleTwiceFromClosed | public/assets/js/components.js:210-230 | two toggles of one item from all-closed give all-closed again |
| Components.ToggleOther | public/assets/js/components.js:210-230 | opening another item closes the open one |
| Components.NewSpinner | public/assets/js/components.js:280-290 | a new spinner holds the merged options and no element, and nothing is mounted |
| Components.MergeOptions | public/assets/js/components.js:281-288 | each given option overrides its default of medium, "Loading..." and no overlay |
| Components.BuildElement | public/assets/js/components.js:295-305 | the caption is present exactly when the text option is non-empty |
| Components.Show | public/assets/js/components.js:292-308 | showing a shown spinner does nothing; otherwise the element built from the options (caption exactly when there is text) is mounted and the mount count rises by one |
| Components.Hide | public/assets/js/components.js:310-315 | hiding clears the element and unmounts it; hiding a hidden spinner does nothing |
| Components.SpinnerIdempotent | public/assets/js/components.js:292-315 | show and hide are idempotent, and hiding right after showing restores the hidden spinner |
| Patterns.IsValidEmail | public/assets/js/components.js:410-413 | accepted exactly when the text splits as local@host.tail, with three non-empty runs free of whitespace and '@'; the utility `validateEmail` (workspace/hotel-booking/js/utils.js, lines 160-163) uses the same pattern |
| Patterns.EmailRegexIff | public/assets/js/components.js:411 | the regular expression holds exactly when there is no whitespace, one '@' with something before it, and a '.' after it that is neither first nor last |
| Patterns.RegexGivesConditions | public/assets/js/components.js:411 | a match of the regular expression meets the explicit conditions |
| Patterns.RegexRuns | public/assets/js/components.js:411 | in a match, every character but the '@' is neither whitespace nor '@' |
| Patterns.ConditionsGiveRegex | public/assets/js/components.js:411 | the explicit conditions give a match of the regular expression |
| Patterns.EmailAccepted | public/assets/js/components.js:410-413 | "guest@hotel.com" is accepted |
| Patterns.EmailNeedsDot | public/assets/js/components.js:410-413 | a host without a dot is rejected |
| Patterns.NoDotRejected | public/assets/js/components.js:410-413 | any text without a '.' is rejected |
| Patterns.EmailNeedsLocalPart | public/assets/js/components.js:410-413 | nothing before the '@' is rejected |
| Patterns.EmailNeedsHost | public/assets/js/components.js:410-413 | a dot right after the '@' is rejected |
| Patterns.EmptyHostRejected | public/assets/js/components.js:410-413 | a single '@' followed at once by the last '.' is rejected, whatever surrounds them |
| Patterns.EmailSingleAt | public/assets/js/components.js:410-413 | a second '@' is rejected |
| Patterns.EmailNoSpace | public/assets/js/components.js:410-413 | whitespace is rejected |
| Patterns.ValidatePhone | workspace/hotel-booking/js/utils.js:166-169 | accepted exactly when non-empty, not a lone '+', and every character is a digit, whitespace, '-', '(' or ')', except a '+' in first place |
| Patterns.PhoneAccepted | workspace/hotel-booking/js/utils.js:166-169 | a formatted number with a leading '+' passes |
| Patterns.PhoneWithoutDigits | workspace/hotel-booking/js/utils.js:166-169 | "---", which holds no digit at all, passes too |
| Patterns.PhoneCharsOf | workspace/hotel-booking/js/utils.js:166-169 | a text made only of digits, spaces, '-', '(' and ')' is in the accepted character class |
| Patterns.PhoneRejected | workspace/hotel-booking/js/utils.js:166-169 | the empty string, a lone '+', a second '+' and a '.' are rejected |
| FormValidator.LastFailure | public/assets/js/components.js:369-397 | none exactly when every check passes; otherwise a failing check that runs after every other failing one |
| FormValidator.CheckValue | public/assets/js/components.js:366-397 | the value passes exactly when no check fails, and the message kept is that of the last failing check; lengths are counted in UTF-16 code units, as `value.length` does |
| FormValidator.ValidateField | public/assets/js/components.js:359-408 | no rules means valid with the errors unchanged; otherwise the trimmed value is valid exactly when no check fails, the message is that of the last failing check, and the field's error is set or deleted |
| FormValidator.Validate | public/assets/js/components.js:345-357 | errors restart empty; the form is valid exactly when every ruled field in the form passes; the errors hold exactly the failing ones with their last messages |
| FormValidator.Verdict | public/assets/js/components.js:349-353 | a field leaves an error exactly when it has rules, a control and a failing check, and the error is its last failing check's message |
| FormValidator.Collect | public/assets/js/components.js:346-354 | the error map holds exactly the visited fields with an error, each with its message |
| FormValidator.VisitField | public/assets/js/components.js:349-353 | one `forEach` step validates a field still to visit, adds its error when it fails, and clears the flag then |
| FormValidator.CollectGrow | public/assets/js/components.js:399-405 | visiting one more field adds its entry when it fails and nothing else, and the flag stays set exactly when it passes |
| FormValidator.VisitOne | public/assets/js/components.js:349-353 | moving a field from the fields to visit to the visited ones grows the error map by its verdict alone |
| FormValidator.VerdictOfField | public/assets/js/components.js:399-405 | what `validateField` reports for a ruled field with a control is its verdict |
| FormValidator.ValidateReadsVerdicts | public/assets/js/components.js:345-357 | the error map and flag over all ruled fields, read field by field |
| FormValidator.AstralCharCountsTwice | public/assets/js/components.js:381-391 | one character beyond U+FFFF has length 2: it meets a minimum of 2 and exceeds a maximum of 1 |
| FormValidator.RequiredRejectsBlank | public/assets/js/components.js:362-373 | a required field holding only whitespace fails its required check |
| FormValidator.BlankSkipsEmailAndPattern | public/assets/js/components.js:376-397 | neither the e-mail check nor the pattern check fails on an empty value |
| FormValidator.MinLengthRejectsBlank | public/assets/js/components.js:382-385 | a positive minimum length fails an empty value even when the field is optional |
| FormValidator.LaterMessageWins | public/assets/js/components.js:369-391 | a blank required field with a minimum length reports the length message, not "is required" |
| Utils.Ceil | workspace/hotel-booking/js/utils.js:71 | the least integer not below the rating |
| Utils.Repeat | workspace/hotel-booking/js/utils.js:63-74 | a counted loop emits its icon `n` times, and nothing when `n` is not positive |
| Utils.GenerateStars | workspace/hotel-booking/js/utils.js:58-77 | the markup is the icons of `floor(rating)` full stars, a half star when the rating has a fraction, then `maxStars − ceil(rating)` empty ones; the home-page `generateStars` (workspace/hotel-booking/js/main.js, lines 501-520) is the same with `maxStars` fixed at 5 |
| Utils.EmitIcons | workspace/hotel-booking/js/utils.js:63-65 | one loop's markup is its icon's markup repeated |
| Utils.MarkupConcat | workspace/hotel-booking/js/utils.js:58-77 | the markup of two icon runs is the concatenation of their markups |
| Utils.CountConcat | workspace/hotel-booking/js/utils.js:58-77 | icon counts add up over concatenation |
| Utils.CountRepeat | workspace/hotel-booking/js/utils.js:63-74 | a loop of one icon holds that many of it and no other |
| Utils.RatingBounds | workspace/hotel-booking/js/utils.js:59-72 | for a rating between 0 and `maxStars`, `floor` is not negative, `ceil` does not exceed `maxStars`, and `ceil` is `floor` plus one exactly when there is a fraction |
| Utils.RowCount | workspace/hotel-booking/js/utils.js:58-77 | the icons of the three loops add up |
| Utils.StarsInRange | workspace/hotel-booking/js/utils.js:58-77 | for a rating between 0 and `maxStars` there are exactly `maxStars` icons: `floor` full, at most one half, the rest empty |
| Utils.StarsOverflow | workspace/hotel-booking/js/utils.js:71-74 | a rating above `maxStars` emits more than `maxStars` icons |
| Utils.NegativeHalfStar | workspace/hotel-booking/js/utils.js:59-74 | a rating of −0.5 gives a half star and five empty ones |
| Utils.EscapeChar | workspace/hotel-booking/js/utils.js:180-186 | a special character becomes an entity starting with '&'; any other stays as it is; no entity contains `< > " '` |
| Utils.EscapeHtml | workspace/hotel-booking/js/utils.js:179-189 | never shorter than the input, free of `< > " '`, and unchanged when the input has no special character |
| Utils.UnescapeEscape | workspace/hotel-booking/js/utils.js:179-189 | escaping loses nothing: decoding the five entities gives the text back |
| Utils.EscapeTwice | workspace/hotel-booking/js/utils.js:181 | escaping is not idempotent: '&' becomes "&amp;" and then "&amp;amp;" |
| I18n.Split | src/app/page.tsx:171 | a key splits into at least one segment, none containing '.' |
| I18n.SplitFirst | src/app/page.tsx:171 | a dot-free run before the first dot becomes the first part, and the rest splits on its own |
| I18n.JoinSplit | src/app/page.tsx:171 | joining the segments with '.' gives the key back |
| I18n.SplitJoin | src/app/page.tsx:171 | splitting dot-free segments joined by '.' gives the segments back |
| I18n.ReduceFalsyStays | hotel-booking/assets/js/language.js:84 | once the walk reaches undefined or an empty string it stays there |
| I18n.ReduceMatchesLookup | hotel-booking/assets/js/language.js:83-85 | the `&&` walk yields a truthy value exactly when the path leads to one, and then the same one; `getNestedTranslation` (workspace/hotel-booking/js/main.js, lines 123-125) walks the same way |
| I18n.GetNestedTranslation | workspace/hotel-booking/js/main.js:123-125 | from a missing tree the walk gives undefined; from a tree it gives a truthy value exactly when the dotted path leads to one, and then that value |
| I18n.GetTranslation | hotel-booking/assets/js/language.js:83-85 | undefined for a language without a tree; truthy exactly when the current language's tree has a truthy value at the dotted path, and then that value |
| I18n.TranslateText | hotel-booking/assets/js/language.js:125-134 | parameters are filled into the found translation, or into the key itself when the lookup is falsy; it throws exactly when parameters meet an object translation |
| I18n.UpdateTranslations | hotel-booking/assets/js/language.js:65-81 | one result per `data-i18n` element, keeping tag, type and key; an element whose lookup is falsy is untouched; otherwise the rendered translation goes into its placeholder or its content |
| I18n.ChainIsLookup | src/app/page.tsx:172-175 | the optional-chain walk from a value is the path lookup |
| I18n.ChainFrom | src/app/page.tsx:172-175 | starting from a missing language tree, the walk gives undefined |
| I18n.T | src/app/page.tsx:170-177 | the value at the key's path when it is truthy, and the key itself otherwise |
| I18n.TranslateAgreesWithT | hotel-booking/assets/js/language.js:125-126 | without parameters `translateText` equals the React `t`, falling back to the key |
| I18n.IndexOf | hotel-booking/assets/js/language.js:130 | the first position where the placeholder occurs, or none when it does not occur |
| I18n.ReplacePlain | hotel-booking/assets/js/language.js:130 | a value without '$' replaces the first occurrence only, and nothing changes without one |
| I18n.ApplyParams | hotel-booking/assets/js/language.js:128-131 | with parameters, an object translation throws and a string translation stays a string; without them the translation comes back |
| I18n.UnmatchedPlaceholdersRemain | hotel-booking/assets/js/language.js:128-131 | a text in which no parameter's placeholder occurs keeps all its placeholders |
| I18n.ApplyOneParam | hotel-booking/assets/js/language.js:128-131 | one parameter with a `$`-free value swaps the first `{name}` for the value and keeps the rest of the text, later `{name}`s included; without the placeholder the text is unchanged |
| I18n.ApplyParamsConcat | hotel-booking/assets/js/language.js:129-131 | parameters are applied one after another: the loop over two lists is the loop over the first, then the second |
| I18n.PlaceholdersApart | hotel-booking/assets/js/language.js:130 | two occurrences of brace-free placeholders are the same placeholder at the same place, or do not overlap |
| I18n.ReplaceKeepsOther | hotel-booking/assets/js/language.js:130 | filling `{a}` keeps an occurrence of a different brace-free placeholder `{m}` |
| I18n.UnnamedPlaceholderSurvives | hotel-booking/assets/js/language.js:128-131 | with brace-free names, a `{m}` in the text that names no parameter still occurs after every parameter is filled in, whatever the values |
| I18n.SecondPlaceholderSurvives | hotel-booking/assets/js/language.js:128-131 | "{n} of {n}" with n = 3 gives "3 of {n}" |
| I18n.FirstPlaceholderFilled | hotel-booking/assets/js/language.js:128-131 | the string `replace` fills only the first "{n}" |
| I18n.DollarInValue | hotel-booking/assets/js/language.js:130 | a value "$$5" is inserted as "$5" |
| I18n.Toggle | hotel-booking/assets/js/language.js:36-39 | 'en' becomes 'ar' and every other language 'en' |
| I18n.ToggleInvolution | hotel-booking/assets/js/language.js:36-39 | toggling twice from 'en' or 'ar' returns to it; any other language goes to 'en' then 'ar'; the home-page toggle (workspace/hotel-booking/js/main.js, line 80) and the React language button (src/app/page.tsx, line 292) are the same |
| I18n.InitialLanguage | hotel-booking/assets/js/language.js:7 | the stored language when non-empty, English otherwise |
| I18n.ApplyTranslation | hotel-booking/assets/js/language.js:65-81 | a falsy translation leaves the element alone; otherwise an e-mail input gets it as placeholder, for the `LanguageManager` so does any input that already has a placeholder, a non-input element and every other input get it as inner HTML, and nothing else of the element changes |
| I18n.ScriptsAgree | workspace/hotel-booking/js/main.js:106-120 | the two scripts agree except on a non-e-mail input that already has a placeholder, where one writes the placeholder and the other the content |
| I18n.ApplyTranslationIdempotent | hotel-booking/assets/js/language.js:65-81 | rendering the same translation twice changes nothing more |
| I18n.AsciiUpper | hotel-booking/assets/js/language.js:52 | same length; every lower-case ASCII letter becomes its upper-case letter and every other character is kept, so no lower-case ASCII letter remains |
| I18n.SetLanguage | hotel-booking/assets/js/language.js:41-63 | language set and stored under 'language'; direction right-to-left exactly for 'ar'; the button label is the language code upper-cased; every element re-rendered from its lookup; the home-page `setLanguage` (workspace/hotel-booking/js/main.js, lines 87-103) follows the same rules |
| I18n.ButtonLabels | hotel-booking/assets/js/language.js:50-53 | after switching, the language button reads "AR" for Arabic and "EN" for English |
| I18n.LanguagePersists | hotel-booking/assets/js/language.js:7-43 | a switch stores the language under 'language', so the next start reads the same language back |
| I18n.SetLanguageIdempotent | hotel-booking/assets/js/language.js:41-63 | setting the current language again changes nothing |
| I18n.ToggleFlipsDirection | hotel-booking/assets/js/language.js:36-47 | toggling from English gives right-to-left, from Arabic left-to-right |
| Landing.InitHero | workspace/hotel-booking/js/main.js:237-254 | no slides means no slider; otherwise one dot per slide with the first active |
| Landing.InitTestimonials | workspace/hotel-booking/js/main.js:346-382 | one card and one dot per testimonial, only the first shown and active |
| Landing.GoTo | workspace/hotel-booking/js/main.js:259-267 | the old item and dot go off, the new ones on, and every other flag is untouched |
| Landing.GoToKeepsOneLit | workspace/hotel-booking/js/main.js:259-267 | from exactly one lit item and dot, a move keeps exactly one of each |
| Landing.StrayActiveSlideStays | workspace/hotel-booking/js/main.js:259-267 | a slide the markup marked active, other than the current one, stays active |
| Landing.NextItem | workspace/hotel-booking/js/main.js:269-272 | moves to `(current + 1) mod length` with as many items, and keeps exactly one item and dot lit |
| Landing.PrevItem | workspace/hotel-booking/js/main.js:274-277 | moves to `(current - 1 + length) mod length` with as many items, and keeps exactly one item and dot lit |
| Landing.Ticks | workspace/hotel-booking/js/main.js:283-284 | any number of auto-play ticks keeps the rotator well formed with as many items |
| Landing.NextThenPrev | workspace/hotel-booking/js/main.js:269-277 | next shows `(i + 1) mod n` and previous undoes it; the testimonial buttons (lines 369-377) behave the same |
| Landing.TicksFollowAdvance | workspace/hotel-booking/js/main.js:269-285 | `k` ticks keep one item lit and move the position as `k` steps of `(i + 1) % n` do |
| Landing.TicksAreModular | workspace/hotel-booking/js/main.js:269-285 | after `k` auto-play ticks the rotator shows item `(i + k) mod n`, still with one item lit |
| Landing.FullRound | workspace/hotel-booking/js/main.js:269-285 | `n` ticks bring a rotator of `n` items back to where it was |
| Landing.SetDefaultDates | workspace/hotel-booking/js/main.js:155-174 | check-in tomorrow, check-out in a week, minimums today and tomorrow |
| Landing.DefaultDatesValid | workspace/hotel-booking/js/main.js:155-174 | the defaults respect their minimums and pass validation for six nights |
| Landing.Discounted | workspace/hotel-booking/js/main.js:398 | keeps exactly the hotels with a truthy discount, never more than there were |
| Landing.DiscountedConcat | workspace/hotel-booking/js/main.js:398 | filtering a catalogue split in two is filtering each part and joining the results in order |
| Landing.DiscountedSingleton | workspace/hotel-booking/js/main.js:398 | one hotel is kept exactly when its discount is truthy; with the split law this fixes the order and the multiplicity of the filter |
| Landing.AllOnDealKept | workspace/hotel-booking/js/main.js:398 | when every hotel is on deal, the list comes back whole and in order |
| Landing.FeaturedDeals | workspace/hotel-booking/js/main.js:398 | the first four discounted hotels, or all of them when fewer; the React deal grid (src/app/page.tsx, line 630) selects the same way |
| Landing.DealsIgnoreTail | workspace/hotel-booking/js/main.js:398 | once four discounted hotels have been seen, later hotels do not matter |
| Landing.ZeroDiscountNotFeatured | workspace/hotel-booking/js/main.js:398 | a zero discount is never featured |
| HomePage.InitialState | src/app/page.tsx:12-19 | no dates, two adults, no children, one room, label "2 Adults, 1 Room" |
| HomePage.WithDefaultDates | src/app/page.tsx:145-157 | check-in tomorrow and check-out in a week, which validate for six nights, with the counters kept |
| HomePage.HandleGuestChange | src/app/page.tsx:179-195 | the named counter moves, floored at 1 adult, 0 children and 1 room; others and unknown types stay; the label is rebuilt |
| HomePage.GuestFloorsHold | src/app/page.tsx:179-188 | counters that start at their floors never go below them |
| HomePage.AdultsStayAtOne | src/app/page.tsx:182-183 | the adult count cannot be clicked below one |
| HomePage.InitialLabelNotRestored | src/app/page.tsx:12-19 | one click up and one down restore the counts but give "2 Guests, 1 Rooms", not the initial label |
| HomePage.Without | src/app/page.tsx:211 | keeps every other id, drops all copies of this one, and keeps the list duplicate-free |
| HomePage.ToggleFavorite | src/app/page.tsx:208-214 | the id is present afterwards exactly when it was absent; other ids keep their membership; no duplicates appear |
| HomePage.ToggleTwice | src/app/page.tsx:208-214 | two toggles restore membership, and the list itself when the id was absent |
| HomePage.SlideTick | src/app/page.tsx:160-168 | no move while the guest dropdown is open; otherwise `(slide + 1) mod 3` |
| HomePage.ThreeTicksCycle | src/app/page.tsx:160-168 | three ticks return to the starting slide |
| HomePage.DotThenTick | src/app/page.tsx:598 | a dot click puts the slide at its own index; an open dropdown holds it there and the next tick moves to the following slide |
| Selection.AtMostOneIffCount | public/assets/js/components.js:210-230 | at most one flag is set exactly when the count of set flags is at most one |
| Selection.PrevNextInverse | public/assets/js/components.js:99-107 | previous after next is the identity on an in-range index |
| Selection.AdvanceIsModular | workspace/hotel-booking/js/main.js:269-272 | `k` steps of next from `i` land on `(i + k) mod n` |
| Text.Utf16Length | public/assets/js/components.js:381-391 | a string's `length` lies between its character count and twice that, equals the count exactly when no character is beyond U+FFFF, and exceeds it otherwise |
| Text.Trim | public/assets/js/components.js:362 | the result is a slice of the input with only whitespace cut from either end, starting and ending with a non-whitespace character, and empty exactly when the input is all whitespace |
| Text.TrimStart | public/assets/js/components.js:362 | a suffix of the input, cut after a run of whitespace, starting with a non-whitespace character |
| Text.SkipBlank | public/assets/js/components.js:362 | the scan from the left stops at the first non-whitespace character |
| Text.SkipBlankBack | public/assets/js/components.js:362 | the scan from the right stops after the last non-whitespace character |
| Text.TrimInfix | public/assets/js/components.js:362 | whitespace only around the trimmed slice and none at its ends; empty exactly when all whitespace |
| Text.ParseIntDecimal | workspace/hotel-booking/js/main.js:202-209 | `parseInt` reads a decimal rendering of an integer back as that integer |

## Left out

- Network and storage wrappers are not modelled: `fetch` of the translation and hotel files, and the `storage`/`session` helpers. Stored state is a value, such as `Booking.Store` or `I18n.Page.storage`.
- DOM work is not modelled. This covers element lookup, event wiring, `innerHTML` markup, focus management and `showFieldError`. It also covers `Modal`, `LazyLoader`, the gallery's fullscreen view and its Escape key, clipboard, download and URL helpers.
- Timers are not modelled: auto-play intervals, notification dismissal, `debounce`/`throttle` and the React page's simulated search. Only the transition a tick applies is modelled.
- `new Date`, ISO strings and time zones are left out; dates are day numbers. So is the mismatch between local midnight and UTC in `validateDates`.
- Floating-point display is left out: `toFixed(2)`, slider percentages and pixel positions, `formatCurrency`/`formatDate`, and `updateDateFormats`. Prices are exact reals.
- I18n.SetLanguage: after re-rendering the elements, the source's `updateNumbers` (hotel-booking/assets/js/language.js lines 95-101) passes a number to `formatNumber`, which calls `toLocaleDateString` on it (lines 117-123). Numbers have no such method, so that `setLanguage` throws a TypeError whenever the page has a `[data-number]` element. The home-page `setLanguage` does not call `updateNumbers`. The model describes the state reached just before that throw, and does not model the throw.
- Random ids (`generateId`, `generateBookingId`) and the clock are parameters of `Booking.ProcessBooking`.
- `sanitizeHtml` is left out because it relies on the DOM. Animations, scroll and mouse tracking, and device and browser detection are left out too, as is `src/app/layout.tsx`, which is metadata and markup only.
- `PriceFilter.getValues` is the `PriceFilter.Range` record itself, so it has no separate member.
- The `PriceFilter` thumb and slider DOM updates are left out, including the re-registration of handlers on every input change. `PriceFilter.DragIdempotent` states why repeated handlers agree.
- Text.ParseInt: reads decimal digits only. The `0x` prefix is left out because every text it reads is a rendered count or a typed price.
- FormValidator.ValidateField: the `pattern` RegExp is an opaque predicate parameter, and `minLength`/`maxLength` are integers where 0 stands for an absent rule.
- I18n.Lookup: indexing into a string leaf gives undefined. JavaScript would find characters and `length` there, and inherited `Object.prototype` properties are not modelled.
- I18n.ApplyParams: parameters are an ordered list of string values. The integer-key ordering of `Object.keys` and non-string values are left out.
- I18n.SetLanguage: the button text uppercases ASCII letters only.
- Guests.VanillaGuestLabel: counters are taken as integers rendered by the counter handler. The static page's `|| 2`, `|| 0` and `|| 1` fallbacks for missing counter elements are left out.
- Booking.HandleSearchSubmit: the counters are read as `textContent` strings, with `|| 2`, `|| 0` and `|| 1` only for a missing element, and stored as strings (hotel-booking/assets/js/booking.js lines 48-50). The model keeps them as the integers the counters show, so string-typed search data is not modelled.
- Utils.GenerateStars: the rating is a real number. A missing rating, which JavaScript reads as NaN and renders as a lone half star, is left out.
- Guests.CounterClick: the count is an integer. A counter text that `parseInt` cannot read would become NaN and be written back as "NaN"; that case is left out.
- Components.OnKey: the Escape key closes the fullscreen view, which is outside the model; the gallery state stays unchanged.

=== FILE: booking.dfy ===
/**
 * The booking flow of the static pages: search criteria and their defaults,
 * date validation, night counting, the price summary, room selection and
 * booking creation. Dates are calendar day numbers; browser storage is the
 * `Store` value threaded through the operations.
 */
module Booking {
  import opened Wrappers
  import opened Selection

  /** A date input's value: empty, or a calendar day counted from a fixed epoch. */
  datatype DateField = Missing | Day(n: int)

  /** The search criteria kept under the `searchData` storage key. */
  datatype SearchData = SearchData(checkin: DateField, checkout: DateField, adults: int, children: int, rooms: int)

  /** `loadSearchData`: the stored criteria, or two adults, no children, one room and no dates. */
  function LoadSearchData(stored: Option<SearchData>): (r: SearchData)
    ensures stored.Some? ==> r == stored.value
    ensures stored.None? ==> r.checkin.Missing? && r.checkout.Missing?
    ensures stored.None? ==> r.adults == 2 && r.children == 0 && r.rooms == 1
  {
    stored.GetOr(SearchData(Missing, Missing, 2, 0, 1))
  }

  /** `validateDates`: both dates present, check-in not before today, check-out strictly after check-in. */
  predicate ValidateDates(checkin: DateField, checkout: DateField, today: int): (ok: bool)
    ensures ok ==> checkin.Day? && checkout.Day? && today <= checkin.n && CalculateNights(checkin, checkout) >= 1
    ensures checkin.Day? && checkout.Day? && today <= checkin.n < checkout.n ==> ok
  {
    && checkin.Day? && checkout.Day?
    && checkin.n >= today
    && checkout.n > checkin.n
  }

  /** `calculateNights`: the whole number of days between the two dates, in either order; 0 when one is missing. */
  function CalculateNights(checkin: DateField, checkout: DateField): (r: nat)
    ensures checkin.Missing? || checkout.Missing? ==> r == 0
    ensures checkin.Day? && checkout.Day? ==> r == checkout.n - checkin.n || r == checkin.n - checkout.n
  {
    if checkin.Missing? || checkout.Missing? then 0
    else if checkout.n >= checkin.n then checkout.n - checkin.n
    else checkin.n - checkout.n
  }

  /** The order of the two dates does not matter. */
  lemma NightsSymmetric(a: DateField, b: DateField)
    ensures CalculateNights(a, b) == CalculateNights(b, a)
  {
  }

  /** No nights exactly when a date is missing or both dates are the same day. */
  lemma NightsZero(a: DateField, b: DateField)
    ensures CalculateNights(a, b) == 0 <==> a.Missing? || b.Missing? || a == b
  {
  }

  /** Every pair that passes validation books at least one night: check-out minus check-in. */
  lemma ValidDatesGiveNights(checkin: DateField, checkout: DateField, today: int)
    requires ValidateDates(checkin, checkout, today)
    ensures CalculateNights(checkin, checkout) == checkout.n - checkin.n >= 1
  {
  }

  /** Validation rejects a missing date, a check-in before today and a check-out on or before check-in. */
  lemma InvalidDatesRejected(checkin: DateField, checkout: DateField, today: int)
    requires || checkin.Missing? || checkout.Missing?
             || (checkin.Day? && checkin.n < today)
             || (checkin.Day? && checkout.Day? && checkout.n <= checkin.n)
    ensures !ValidateDates(checkin, checkout, today)
  {
  }

  /** The `min` attributes of the check-in and check-out inputs. */
  datatype DateMins = DateMins(checkinMin: int, checkoutMin: int)

  /** `updateDateConstraints`: a chosen check-in moves the check-out minimum to the day after it. */
  function UpdateDateConstraints(m: DateMins, checkin: DateField): (r: DateMins)
    ensures r.checkinMin == m.checkinMin
    ensures checkin.Day? ==> r.checkoutMin == checkin.n + 1
    ensures checkin.Missing? ==> r == m
  {
    if checkin.Day? then m.(checkoutMin := checkin.n + 1) else m
  }

  /** `setupDatePickers`: every date input gets today as its minimum, then the check-out constraint is applied. */
  function SetupDatePickers(today: int, checkin: DateField): (r: DateMins)
    ensures r.checkinMin == today
    ensures r.checkoutMin == if checkin.Day? then checkin.n + 1 else today
  {
    UpdateDateConstraints(DateMins(today, today), checkin)
  }

  /** Dates the pickers allow after a check-in is chosen always pass validation. */
  lemma PickersAllowOnlyValidDates(today: int, checkin: int, checkout: int)
    requires checkin >= SetupDatePickers(today, Day(checkin)).checkinMin
    requires checkout >= SetupDatePickers(today, Day(checkin)).checkoutMin
    ensures ValidateDates(Day(checkin), Day(checkout), today)
  {
  }

  // ------------------------------------------------------------ rooms

  /** A room; `price` is `None` where `parseFloat` of the card's price attribute gave NaN. */
  datatype Room = Room(id: string, price: Option<real>)

  /** A room card on the page: `data-room-id` and the parsed `data-room-price`. */
  datatype RoomCard = RoomCard(id: string, price: Option<real>)

  /** The `selected` flags of the room cards together with the room remembered as selected. */
  datatype RoomPick = RoomPick(highlighted: seq<bool>, room: Room)

  /** `selectRoom(cards[k])`: card `k` becomes the only highlighted card and its id and price are remembered. */
  function SelectRoom(cards: seq<RoomCard>, k: nat): (r: RoomPick)
    requires k < |cards|
    ensures |r.highlighted| == |cards| && OnlyAt(r.highlighted, k)
    ensures r.room.id == cards[k].id && r.room.price == cards[k].price
  {
    RoomPick(Select(|cards|, k), Room(cards[k].id, cards[k].price))
  }

  // ---------------------------------------------------------- summary

  /** The figures `updateBookingSummary` shows (before `toFixed(2)` rounding). */
  datatype Summary = Summary(nightly: real, nights: nat, subtotal: real, tax: real, total: real)

  /** `selectedRoom?.price || 0`: no room, and a NaN or zero price, all count as 0. */
  function NightlyPrice(room: Option<Room>): (p: real)
    ensures room.None? ==> p == 0.0
    ensures room.Some? && room.value.price.Some? ==> p == room.value.price.value
    ensures room.Some? && room.value.price.None? ==> p == 0.0
  {
    match room
    case None => 0.0
    case Some(r) => r.price.GetOr(0.0)
  }

  /**
   * `updateBookingSummary`: subtotal is price times nights, taxes are 15 % of
   * it, and the total, which the source computes as subtotal times 1.15, is
   * subtotal plus taxes.
   */
  function BookingSummary(room: Option<Room>, checkin: DateField, checkout: DateField): (s: Summary)
    ensures s.nightly == NightlyPrice(room) && s.nights == CalculateNights(checkin, checkout)
    ensures s.subtotal == s.nightly * s.nights as real
    ensures s.tax == s.subtotal * 0.15
    ensures s.total == s.subtotal + s.tax
    ensures room.None? ==> s.subtotal == 0.0 && s.total == 0.0
    ensures s.nightly >= 0.0 ==> 0.0 <= s.subtotal <= s.total
  {
    var nightly := NightlyPrice(room);
    var nights := CalculateNights(checkin, checkout);
    var total := nightly * nights as real;
    Summary(nightly, nights, nightly * nights as real, nightly * nights as real * 0.15, total * 1.15)
  }

  /** A 100-per-night room for three nights: subtotal 300, taxes 45, total 345. */
  lemma SummaryExample()
    ensures var s := BookingSummary(Some(Room("deluxe", Some(100.0))), Day(10), Day(13));
            s.nights == 3 && s.subtotal == 300.0 && s.tax == 45.0 && s.total == 345.0
  {
  }

  // ---------------------------------------------------------- booking

  datatype Status = Pending

  /** A booking: generated id, hotel and room, the search fields, status and creation time. */
  datatype BookingRecord = BookingRecord(
    id: string, hotel: Option<string>, room: Room, search: SearchData, status: Status, createdAt: string)

  /** The booking system's state: criteria, and the selected hotel and room. */
  datatype BookingSystem = BookingSystem(searchData: SearchData, selectedHotel: Option<string>, selectedRoom: Option<Room>)

  /** The storage keys the flow reads and writes: `searchData`, `bookings` and `currentBooking`. */
  datatype Store = Store(searchData: Option<SearchData>, bookings: seq<BookingRecord>, currentBooking: Option<BookingRecord>)

  /** Where a submission ends: an error message on the page, or navigation to another page. */
  datatype Outcome = Failed(message: string, store: Store) | Navigated(page: string, store: Store)

  /** The constructor: criteria come from storage, nothing is selected. */
  function NewBookingSystem(store: Store): (b: BookingSystem)
    ensures b.selectedHotel.None? && b.selectedRoom.None?
    ensures b.searchData == LoadSearchData(store.searchData)
  {
    BookingSystem(LoadSearchData(store.searchData), None, None)
  }

  /** `saveBooking`: the stored list grows by exactly this booking, appended after the earlier ones. */
  function SaveBooking(bookings: seq<BookingRecord>, b: BookingRecord): (r: seq<BookingRecord>)
    ensures |r| == |bookings| + 1
    ensures r[..|bookings|] == bookings && r[|bookings|] == b
  {
    bookings + [b]
  }

  /**
   * `processBooking`: without a selected room it reports an error and stores
   * nothing; otherwise it stores a pending booking carrying the criteria,
   * makes it the current booking and goes to the checkout page. The id and
   * the creation time are the generator's and the clock's results.
   */
  function ProcessBooking(sys: BookingSystem, search: SearchData, id: string, now: string, store: Store): (o: Outcome)
    ensures sys.selectedRoom.None? ==> o == Failed("Please select a room", store)
    ensures sys.selectedRoom.Some? ==>
      && o.Navigated? && o.page == "pages/checkout.html"
      && |o.store.bookings| == |store.bookings| + 1
      && o.store.bookings[..|store.bookings|] == store.bookings
      && o.store.searchData == store.searchData
      && var b := o.store.bookings[|store.bookings|];
         && b == BookingRecord(id, sys.selectedHotel, sys.selectedRoom.value, search, Pending, now)
         && o.store.currentBooking == Some(b)
  {
    match sys.selectedRoom
    case None => Failed("Please select a room", store)
    case Some(room) =>
      var b := BookingRecord(id, sys.selectedHotel, room, search, Pending, now);
      Navigated("pages/checkout.html", store.(bookings := SaveBooking(store.bookings, b), currentBooking := Some(b)))
  }

  /** Which form was submitted: the search form on the home page, or a booking form. */
  datatype FormKind = SearchForm | BookingForm

  /**
   * `handleSearchSubmit`: invalid dates stop with an error and store nothing;
   * otherwise the criteria are stored, then the search form goes to the
   * results page and a booking form continues with `processBooking`.
   */
  function HandleSearchSubmit(form: FormKind, search: SearchData, today: int, sys: BookingSystem,
                              id: string, now: string, store: Store): (o: Outcome)
    ensures !ValidateDates(search.checkin, search.checkout, today) ==> o == Failed("Please select valid dates", store)
    ensures ValidateDates(search.checkin, search.checkout, today) ==>
      LoadSearchData(o.store.searchData) == search
      && |o.store.bookings| >= |store.bookings| && o.store.bookings[..|store.bookings|] == store.bookings
    ensures form == SearchForm && ValidateDates(search.checkin, search.checkout, today) ==>
      o == Navigated("pages/search.html", store.(searchData := Some(search)))
    ensures form == BookingForm && ValidateDates(search.checkin, search.checkout, today) ==>
      o == ProcessBooking(sys, search, id, now, store.(searchData := Some(search)))
    ensures ValidateDates(search.checkin, search.checkout, today) ==> o.store.searchData == Some(search)
  {
    if !ValidateDates(search.checkin, search.checkout, today) then Failed("Please select valid dates", store)
    else
      var saved := store.(searchData := Some(search));
      match form
      case SearchForm => Navigated("pages/search.html", saved)
      case BookingForm => ProcessBooking(sys, search, id, now, saved)
  }

  /** A booking form with valid dates but no room still leaves the criteria stored. */
  lemma SubmitWithoutRoomKeepsCriteria(search: SearchData, today: int, sys: BookingSystem, id: string, now: string, store: Store)
    requires ValidateDates(search.checkin, search.checkout, today) && sys.selectedRoom.None?
    ensures var o := HandleSearchSubmit(BookingForm, search, today, sys, id, now, store);
            o.Failed? && o.message == "Please select a room" && o.store.searchData == Some(search)
            && o.store.bookings == store.bookings
  {
  }
}

=== FILE: components.dfy ===
/**
 * The reusable widgets of the static pages: image gallery, tabs, accordion
 * and loading spinner. Each widget's DOM state is reduced to the flags its
 * handlers read and write; the handlers become pure transitions.
 */
module Components {
  import opened Wrappers
  import opened Selection

  // ---------------------------------------------------------------- gallery

  /**
   * An image gallery: how many images it cycles through, the current index
   * (NaN once `% 0` has run on an empty gallery) and the `active` flag of each
   * thumbnail on the page.
   */
  datatype Gallery = Gallery(count: nat, current: Index, thumbnails: seq<bool>)

  /** A fresh gallery: index 0, and one thumbnail per image with the first one active when the strip exists. */
  function InitGallery(count: nat, hasStrip: bool): (g: Gallery)
    ensures g.current == At(0)
    ensures hasStrip && count > 0 ==> OnlyAt(g.thumbnails, 0) && |g.thumbnails| == count
    ensures !hasStrip ==> g.thumbnails == []
  {
    Gallery(count, At(0), if hasStrip then Select(count, 0) else [])
  }

  /** `goToImage(k)`: the index becomes `k` and exactly the thumbnail at position `k` is active. */
  function GoToImage(g: Gallery, k: Index): (r: Gallery)
    ensures r.current == k && r.count == g.count
    ensures |r.thumbnails| == |g.thumbnails|
    ensures forall j :: 0 <= j < |r.thumbnails| ==> (r.thumbnails[j] <==> k == At(j))
  {
    Gallery(g.count, k, Select(|g.thumbnails|, if k.At? then k.i else -1))
  }

  /** The arrow button or ArrowRight key. */
  function NextImage(g: Gallery): (r: Gallery)
    ensures g.current.At? && 0 <= g.current.i < g.count ==> r.current.At? && 0 <= r.current.i < g.count
    ensures g.count == 0 ==> r.current == NaN
  {
    GoToImage(g, Next(g.current, g.count))
  }

  /** The back button or ArrowLeft key. */
  function PreviousImage(g: Gallery): (r: Gallery)
    ensures g.current.At? && 0 <= g.current.i < g.count ==> r.current.At? && 0 <= r.current.i < g.count
    ensures g.count == 0 ==> r.current == NaN
  {
    GoToImage(g, Prev(g.current, g.count))
  }

  /** Keyboard navigation: only the two arrow keys move the gallery. */
  function OnKey(g: Gallery, key: string): (r: Gallery)
    ensures key == "ArrowLeft" ==> r == PreviousImage(g)
    ensures key == "ArrowRight" ==> r == NextImage(g)
    ensures key != "ArrowLeft" && key != "ArrowRight" ==> r == g
  {
    if key == "ArrowLeft" then PreviousImage(g)
    else if key == "ArrowRight" then NextImage(g)
    else g
  }

  /** A consistent gallery: an in-range index whose thumbnail is the only active one. */
  predicate Showing(g: Gallery, i: int) {
    0 <= i < g.count && g.current == At(i) && |g.thumbnails| == g.count && OnlyAt(g.thumbnails, i)
  }

  /** Next keeps a consistent gallery consistent, exactly one thumbnail lit, and Previous brings it back. */
  lemma GalleryNextPrevious(g: Gallery, i: int)
    requires Showing(g, i)
    ensures Showing(NextImage(g), (i + 1) % g.count)
    ensures CountTrue(NextImage(g).thumbnails) == 1
    ensures PreviousImage(NextImage(g)) == g
  {
    PrevNextInverse(i, g.count);
    var n := NextImage(g);
    if i + 1 < g.count { ModBelow(i + 1, g.count); } else { ModAtLength(g.count); }
    assert n.current.At?;
    OnlyAtCountsOne(n.thumbnails, n.current.i);
    var back := PreviousImage(n);
    assert back.thumbnails == g.thumbnails;
  }

  // ------------------------------------------------------------------- tabs

  /** The `active` flags of the tab buttons (their `aria-selected` equals it) and of the panes. */
  datatype Tabs = Tabs(buttons: seq<bool>, panes: seq<bool>)

  /** `showTab(k)`: button `j` and pane `j` are active exactly when `j == k`. */
  function ShowTab(t: Tabs, k: int): (r: Tabs)
    ensures |r.buttons| == |t.buttons| && |r.panes| == |t.panes|
    ensures forall j :: 0 <= j < |r.buttons| ==> (r.buttons[j] <==> j == k)
    ensures forall j :: 0 <= j < |r.panes| ==> (r.panes[j] <==> j == k)
  {
    Tabs(Select(|t.buttons|, k), Select(|t.panes|, k))
  }

  /** Construction shows the first tab when there is at least one button, and leaves the markup alone otherwise. */
  function InitTabs(t: Tabs): (r: Tabs)
    ensures |t.buttons| > 0 ==> OnlyAt(r.buttons, 0) && (|t.panes| > 0 ==> OnlyAt(r.panes, 0))
    ensures |t.buttons| == 0 ==> r == t
  {
    if |t.buttons| > 0 then ShowTab(t, 0) else t
  }

  /** After any click on a tab button exactly one button is active, and exactly one pane when there are as many panes. */
  lemma ShowTabExactlyOne(t: Tabs, k: int)
    requires 0 <= k < |t.buttons|
    ensures CountTrue(ShowTab(t, k).buttons) == 1
    ensures |t.panes| == |t.buttons| ==> CountTrue(ShowTab(t, k).panes) == 1
  {
    OnlyAtCountsOne(ShowTab(t, k).buttons, k);
    if |t.panes| == |t.buttons| {
      OnlyAtCountsOne(ShowTab(t, k).panes, k);
    }
  }

  // -------------------------------------------------------------- accordion

  /**
   * `toggleItem(items[k])`: every item closes; the target reopens unless it
   * was the open one.
   */
  function ToggleItem(items: seq<bool>, k: nat): (r: seq<bool>)
    requires k < |items|
    ensures |r| == |items|
    ensures AtMostOne(r)
    ensures items[k] ==> NoneSet(r)
    ensures !items[k] ==> OnlyAt(r, k)
  {
    if items[k] then ClearAll(|items|) else Select(|items|, k)
  }

  /** Toggling an item twice from an all-closed accordion closes it again. */
  lemma ToggleTwiceFromClosed(items: seq<bool>, k: nat)
    requires k < |items| && NoneSet(items)
    ensures ToggleItem(ToggleItem(items, k), k) == items
  {
  }

  /** Opening another item closes the one that was open: the open count never exceeds one. */
  lemma ToggleOther(items: seq<bool>, open: nat, k: nat)
    requires OnlyAt(items, open) && k < |items| && k != open
    ensures OnlyAt(ToggleItem(items, k), k)
    ensures CountTrue(ToggleItem(items, k)) == 1
  {
    OnlyAtCountsOne(ToggleItem(items, k), k);
  }

  // --------------------------------------------------------------- spinner

  datatype SpinnerOptions = SpinnerOptions(size: string, text: string, overlay: bool)

  /** Options given to the constructor; an absent key keeps the default. */
  datatype SpinnerOverrides = SpinnerOverrides(size: Option<string>, text: Option<string>, overlay: Option<bool>)

  /** `{ size: 'medium', text: 'Loading...', overlay: false, ...options }`. */
  function MergeOptions(o: SpinnerOverrides): (r: SpinnerOptions)
    ensures o.size.Some? ==> r.size == o.size.value
    ensures o.size.None? ==> r.size == "medium"
    ensures o.text.Some? ==> r.text == o.text.value
    ensures o.text.None? ==> r.text == "Loading..."
    ensures r.overlay == (o.overlay == Some(true))
  {
    SpinnerOptions(o.size.GetOr("medium"), o.text.GetOr("Loading..."), o.overlay.GetOr(false))
  }

  /** The spinner element `show` builds: its classes and the caption (omitted for an empty text). */
  datatype SpinnerElement = SpinnerElement(className: string, sizeClass: string, caption: Option<string>)

  /** A spinner: its options, the element it holds, and how many of its elements the container has. */
  datatype Spinner = Spinner(options: SpinnerOptions, element: Option<SpinnerElement>, mounted: nat)

  /** The constructor: the merged options, no element built yet and nothing mounted. */
  function NewSpinner(o: SpinnerOverrides): (sp: Spinner)
    ensures sp.options == MergeOptions(o) && sp.element.None? && sp.mounted == 0
  {
    Spinner(MergeOptions(o), None, 0)
  }

  function BuildElement(o: SpinnerOptions): (e: SpinnerElement)
    ensures e.caption.Some? <==> o.text != ""
  {
    SpinnerElement("loading-spinner " + (if o.overlay then "spinner-overlay" else ""),
                   "spinner--" + o.size,
                   if o.text != "" then Some(o.text) else None)
  }

  /** The container holds this spinner's element exactly while the spinner holds it. */
  predicate Mounted(s: Spinner) {
    s.mounted == if s.element.Some? then 1 else 0
  }

  /** `show()`: does nothing while shown; otherwise builds the element and appends it. */
  function Show(s: Spinner): (r: Spinner)
    ensures r.element.Some? && r.options == s.options
    ensures s.element.Some? ==> r == s
    ensures Mounted(s) ==> Mounted(r)
    ensures s.element.None? ==> r.element == Some(BuildElement(s.options)) && r.mounted == s.mounted + 1
  {
    if s.element.Some? then s
    else Spinner(s.options, Some(BuildElement(s.options)), s.mounted + 1)
  }

  /** `hide()`: removes the element when there is one. */
  function Hide(s: Spinner): (r: Spinner)
    ensures r.element.None? && r.options == s.options
    ensures s.element.None? ==> r == s
    ensures Mounted(s) ==> Mounted(r)
  {
    if s.element.Some? then Spinner(s.options, None, if s.mounted > 0 then s.mounted - 1 else 0)
    else s
  }

  /** Both operations are idempotent, and hiding what was just shown restores the hidden spinner. */
  lemma SpinnerIdempotent(s: Spinner)
    ensures Show(Show(s)) == Show(s)
    ensures Hide(Hide(s)) == Hide(s)
    ensures Mounted(s) && s.element.None? ==> Hide(Show(s)) == s
  {
  }
}

=== FILE: form_validator.dfy ===
/**
 * The `FormValidator` component: per-field rules (required, e-mail,
 * minimum and maximum length, a pattern with its own message), checked on
 * the trimmed field value in a fixed order where the message of the last
 * failing check is the one kept, and an error map from field names to
 * messages.
 */
module FormValidator {
  import opened Wrappers
  import opened Text
  import Patterns

  /**
   * The rules of one field. A length of 0 is JavaScript-falsy and means the
   * rule is absent; `pattern` stands for the RegExp's `test`; an empty
   * `message` is falsy and falls back to the default pattern message.
   */
  datatype Rules = Rules(required: bool, email: bool, minLength: int, maxLength: int,
                         pattern: Option<string -> bool>, message: string)

  /** The checks in the order the validator runs them. */
  datatype Check = Required | Email | MinLength | MaxLength | Pattern

  /** Whether check `c` of rules `r` rejects the (already trimmed) value `v`. */
  predicate Fails(r: Rules, v: string, c: Check) {
    match c
    case Required => r.required && v == ""
    case Email => r.email && v != "" && !Patterns.IsValidEmail(v)
    case MinLength => r.minLength != 0 && Utf16Length(v) < r.minLength
    case MaxLength => r.maxLength != 0 && Utf16Length(v) > r.maxLength
    case Pattern => r.pattern.Some? && v != "" && !r.pattern.value(v)
  }

  /** Position of a check in the running order. */
  function Rank(c: Check): nat {
    match c
    case Required => 0
    case Email => 1
    case MinLength => 2
    case MaxLength => 3
    case Pattern => 4
  }

  /**
   * The failing check that runs last, whose message is the one kept, or
   * `None` when every check passes.
   */
  function LastFailure(r: Rules, v: string): (w: Option<Check>)
    ensures w.None? <==> forall c :: !Fails(r, v, c)
    ensures w.Some? ==> Fails(r, v, w.value) && forall c :: Fails(r, v, c) ==> Rank(c) <= Rank(w.value)
  {
    if Fails(r, v, Pattern) then Some(Pattern)
    else if Fails(r, v, MaxLength) then Some(MaxLength)
    else if Fails(r, v, MinLength) then Some(MinLength)
    else if Fails(r, v, Email) then Some(Email)
    else if Fails(r, v, Required) then Some(Required)
    else None
  }

  /** The message a failing check writes for field `field`. */
  function Message(field: string, r: Rules, c: Check): string {
    match c
    case Required => field + " is required"
    case Email => "Please enter a valid email address"
    case MinLength => field + " must be at least " + Decimal(r.minLength) + " characters"
    case MaxLength => field + " must not exceed " + Decimal(r.maxLength) + " characters"
    case Pattern => if r.message != "" then r.message else field + " is not valid"
  }

  /**
   * The checks of `validateField` on one trimmed value: each failing check
   * clears the valid flag and overwrites the message, so the message that
   * survives is the one of the last failing check.
   */
  method CheckValue(field: string, r: Rules, value: string) returns (valid: bool, message: string)
    ensures valid <==> LastFailure(r, value).None?
    ensures !valid ==> message == Message(field, r, LastFailure(r, value).value)
  {
    valid := true;
    message := "";
    ghost var last: Option<Check> := None;
    if r.required && value == "" {
      valid := false;
      message := field + " is required";
      last := Some(Required);
    }
    if r.email && value != "" && !Patterns.IsValidEmail(value) {
      valid := false;
      message := "Please enter a valid email address";
      last := Some(Email);
    }
    if r.minLength != 0 && Utf16Length(value) < r.minLength {
      valid := false;
      message := field + " must be at least " + Decimal(r.minLength) + " characters";
      last := Some(MinLength);
    }
    if r.maxLength != 0 && Utf16Length(value) > r.maxLength {
      valid := false;
      message := field + " must not exceed " + Decimal(r.maxLength) + " characters";
      last := Some(MaxLength);
    }
    if r.pattern.Some? && value != "" && !r.pattern.value(value) {
      valid := false;
      message := if r.message != "" then r.message else field + " is not valid";
      last := Some(Pattern);
    }
    assert last == LastFailure(r, value);
  }

  /**
   * `validateField`: a field without rules is valid and leaves the errors
   * alone; otherwise the checks run in order on the trimmed value and the
   * field's entry in `errors` is set to the surviving message or deleted.
   */
  method ValidateField(rules: map<string, Rules>, field: string, raw: string, errors: map<string, string>)
    returns (valid: bool, message: string, errors': map<string, string>)
    ensures field !in rules ==> valid && errors' == errors
    ensures field in rules ==>
      var w := LastFailure(rules[field], Trim(raw));
      && (valid <==> w.None?)
      && (w.Some? ==> message == Message(field, rules[field], w.value))
      && errors' == (if valid then errors - {field} else errors[field := message])
  {
    if field !in rules {
      return true, "", errors;
    }
    valid, message := CheckValue(field, rules[field], Trim(raw));
    if !valid {
      errors' := errors[field := message];
    } else {
      errors' := errors - {field};
    }
  }

  /**
   * What validating field `f` leaves in the error map: nothing when it has
   * no rules or no control in the form or passes, else its message.
   */
  function Verdict(rules: map<string, Rules>, form: map<string, string>, f: string): (v: Option<string>)
    ensures v.Some? <==> f in rules && f in form && exists c :: Fails(rules[f], Trim(form[f]), c)
    ensures v.Some? ==> v.value == Message(f, rules[f], LastFailure(rules[f], Trim(form[f])).value)
  {
    if f in rules && f in form then
      var w := LastFailure(rules[f], Trim(form[f]));
      if w.Some? then Some(Message(f, rules[f], w.value)) else None
    else None
  }

  /** The error map after the fields of `fields` were validated one by one, given each field's verdict. */
  function Collect(fields: set<string>, verdict: string -> Option<string>): (m: map<string, string>)
    ensures m.Keys <= fields
    ensures forall f :: f in fields && verdict(f).Some? ==> f in m && m[f] == verdict(f).value
    ensures forall f :: f in m ==> verdict(f).Some?
  {
    map f | f in fields && verdict(f).Some? :: verdict(f).value
  }

  /** Every field of `fields` passes. */
  predicate AllPass(fields: set<string>, verdict: string -> Option<string>) {
    forall f :: f in fields ==> verdict(f).None?
  }

  /** The error map once the ruled fields of `done` were validated. */
  function Errors(rules: map<string, Rules>, form: map<string, string>, done: set<string>): map<string, string> {
    Collect(done, g => Verdict(rules, form, g))
  }

  /** Whether every ruled field of `done` passed. */
  predicate Passed(rules: map<string, Rules>, form: map<string, string>, done: set<string>) {
    AllPass(done, g => Verdict(rules, form, g))
  }

  /**
   * `validate`: the errors start empty and every field named by the rules
   * whose control exists in the form is validated; the form is valid
   * exactly when each of those passes, and the errors map each failing
   * one to the message of its last failing check. The visiting order does
   * not matter.
   */
  method Validate(rules: map<string, Rules>, form: map<string, string>)
    returns (ok: bool, errors: map<string, string>)
    ensures ok <==> forall f, c :: f in rules && f in form ==> !Fails(rules[f], Trim(form[f]), c)
    ensures errors.Keys <= rules.Keys * form.Keys
    ensures forall f :: f in rules && f in form ==>
      (f in errors <==> exists c :: Fails(rules[f], Trim(form[f]), c))
    ensures forall f :: f in errors ==>
      errors[f] == Message(f, rules[f], LastFailure(rules[f], Trim(form[f])).value)
  {
    errors := map[];
    ok := true;
    var todo := rules.Keys;
    assert rules.Keys - todo == {};
    while todo != {}
      invariant todo <= rules.Keys
      invariant errors == Errors(rules, form, rules.Keys - todo)
      invariant ok <==> Passed(rules, form, rules.Keys - todo)
      decreases |todo|
    {
      todo, ok, errors := VisitField(rules, form, todo, ok, errors);
    }
    assert rules.Keys - todo == rules.Keys;
    ValidateReadsVerdicts(rules, form, ok, errors);
  }

  /**
   * One call of the `forEach` callback: some field still to visit is
   * validated when its control exists, and a failure clears the flag.
   */
  method VisitField(rules: map<string, Rules>, form: map<string, string>, todo: set<string>,
                    ok: bool, errors: map<string, string>)
    returns (todo': set<string>, ok': bool, errors': map<string, string>)
    requires todo != {} && todo <= rules.Keys
    requires errors == Errors(rules, form, rules.Keys - todo)
    requires ok <==> Passed(rules, form, rules.Keys - todo)
    ensures todo' <= todo && |todo'| < |todo|
    ensures errors' == Errors(rules, form, rules.Keys - todo')
    ensures ok' <==> Passed(rules, form, rules.Keys - todo')
  {
    var f :| f in todo;
    todo' := todo - {f};
    VisitOne(rules, form, todo, f);
    ok', errors' := ok, errors;
    if f in form {
      var valid, message, e := ValidateField(rules, f, form[f], errors);
      VerdictOfField(rules, form, f, valid, message);
      errors' := e;
      if !valid {
        ok' := false;
      } else {
        RemoveAbsent(errors, f);
      }
    } else {
      assert Verdict(rules, form, f) == None;
    }
  }

  lemma RemoveAbsent(m: map<string, string>, k: string)
    requires k !in m
    ensures m - {k} == m
  {
  }

  /** Visiting `f` adds its verdict to the error map and to the flag. */
  lemma VisitOne(rules: map<string, Rules>, form: map<string, string>, todo: set<string>, f: string)
    requires f in todo && todo <= rules.Keys
    ensures todo - {f} <= todo && |todo - {f}| < |todo|
    ensures f !in Errors(rules, form, rules.Keys - todo)
    ensures var v := Verdict(rules, form, f);
      Errors(rules, form, rules.Keys - (todo - {f})) ==
        if v.Some? then Errors(rules, form, rules.Keys - todo)[f := v.value] else Errors(rules, form, rules.Keys - todo)
    ensures Passed(rules, form, rules.Keys - (todo - {f})) <==>
      Passed(rules, form, rules.Keys - todo) && Verdict(rules, form, f).None?
  {
    CollectVisit(rules.Keys, todo, g => Verdict(rules, form, g), f);
  }

  lemma CollectVisit(keys: set<string>, todo: set<string>, verdict: string -> Option<string>, f: string)
    requires f in todo && todo <= keys
    ensures todo - {f} <= todo && |todo - {f}| < |todo|
    ensures f !in Collect(keys - todo, verdict)
    ensures Collect(keys - (todo - {f}), verdict) ==
      if verdict(f).Some? then Collect(keys - todo, verdict)[f := verdict(f).value] else Collect(keys - todo, verdict)
    ensures AllPass(keys - (todo - {f}), verdict) <==> AllPass(keys - todo, verdict) && verdict(f).None?
  {
    var done := keys - todo;
    assert done + {f} == keys - (todo - {f});
    CollectGrow(done, verdict, f);
  }

  /** What `validateField` reports for a ruled field with a control is its verdict. */
  lemma VerdictOfField(rules: map<string, Rules>, form: map<string, string>, f: string, valid: bool, message: string)
    requires f in rules && f in form
    requires valid <==> LastFailure(rules[f], Trim(form[f])).None?
    requires !valid ==> message == Message(f, rules[f], LastFailure(rules[f], Trim(form[f])).value)
    ensures Verdict(rules, form, f) == if valid then None else Some(message)
  {
  }

  /** Validating one more field adds its entry, when it fails, and nothing else. */
  lemma CollectGrow(done: set<string>, verdict: string -> Option<string>, f: string)
    requires f !in done
    ensures Collect(done + {f}, verdict) ==
      if verdict(f).Some? then Collect(done, verdict)[f := verdict(f).value] else Collect(done, verdict)
    ensures AllPass(done + {f}, verdict) <==> AllPass(done, verdict) && verdict(f).None?
  {
  }

  /** The error map and flag over all ruled fields, read field by field. */
  lemma ValidateReadsVerdicts(rules: map<string, Rules>, form: map<string, string>, ok: bool, errors: map<string, string>)
    requires errors == Errors(rules, form, rules.Keys)
    requires ok <==> Passed(rules, form, rules.Keys)
    ensures ok <==> forall f, c :: f in rules && f in form ==> !Fails(rules[f], Trim(form[f]), c)
    ensures errors.Keys <= rules.Keys * form.Keys
    ensures forall f :: f in rules && f in form ==>
      (f in errors <==> exists c :: Fails(rules[f], Trim(form[f]), c))
    ensures forall f :: f in errors ==>
      errors[f] == Message(f, rules[f], LastFailure(rules[f], Trim(form[f])).value)
  {
    forall f | f in errors ensures f in form {
      assert Verdict(rules, form, f).Some?;
    }
  }

  /**
   * Lengths are `value.length`, counted in UTF-16 code units: one emoji
   * meets a minimum of two characters and exceeds a maximum of one.
   */
  lemma AstralCharCountsTwice()
    ensures var v := "\U{1F600}";
      && Utf16Length(v) == 2
      && !Fails(Rules(false, false, 2, 0, None, ""), v, MinLength)
      && Fails(Rules(false, false, 0, 1, None, ""), v, MaxLength)
  {
    assert "\U{1F600}"[1..] == [];
  }

  /** A required field left blank (or only whitespace) fails its Required check. */
  lemma RequiredRejectsBlank(r: Rules, raw: string)
    requires r.required && AllWhitespace(raw)
    ensures Fails(r, Trim(raw), Required) && LastFailure(r, Trim(raw)).Some?
  {
  }

  /** E-mail and pattern are never checked on a blank value, required or not. */
  lemma BlankSkipsEmailAndPattern(r: Rules)
    ensures !Fails(r, "", Email) && !Fails(r, "", Pattern)
  {
  }

  /** A positive minimum length rejects a blank value even when the field is not required. */
  lemma MinLengthRejectsBlank(r: Rules)
    requires r.minLength > 0
    ensures LastFailure(r, "").Some? && LastFailure(r, "").value != Required
  {
    assert Fails(r, "", MinLength);
  }

  /**
   * A blank required field with a minimum length (and no negative maximum)
   * reports the length message, not "is required": the later failure
   * overwrites the earlier one.
   */
  lemma LaterMessageWins(field: string, r: Rules)
    requires r.required && r.minLength > 0 && r.maxLength >= 0
    ensures Fails(r, "", Required)
    ensures Message(field, r, LastFailure(r, "").value) == field + " must be at least " + Decimal(r.minLength) + " characters"
  {
  }
}

=== FILE: guests.dfy ===
/**
 * Guest counters and the "N Guests, M Rooms" label, in the two vanilla
 * versions (the static booking script and the home-page script share the
 * same rules) and in the React page, whose rules differ.
 */
module Guests {
  import opened Wrappers
  import Text

  /** Which counter button was clicked: one with class `plus`, one with `minus`, or neither. */
  datatype CounterButton = Plus | Minus | Neither

  /** The vanilla counter click: plus adds one; minus subtracts one only from a positive count. */
  function CounterClick(count: int, b: CounterButton): (r: int)
    ensures b == Plus ==> r == count + 1
    ensures b == Minus && count > 0 ==> r == count - 1
    ensures b == Minus && count <= 0 ==> r == count
    ensures b == Neither ==> r == count
    ensures count >= 0 ==> r >= 0
  {
    match b
    case Plus => count + 1
    case Minus => if count > 0 then count - 1 else count
    case Neither => count
  }

  /** A run of clicks: every plus adds one and every minus takes one off a positive count. */
  function CounterClicks(count: int, clicks: seq<CounterButton>): (r: int)
    ensures (forall i :: 0 <= i < |clicks| ==> clicks[i] == Plus) ==> r == count + |clicks|
    ensures (forall i :: 0 <= i < |clicks| ==> clicks[i] == Neither) ==> r == count
    ensures r <= count + |clicks|
    decreases |clicks|
  {
    if clicks == [] then count else CounterClicks(CounterClick(count, clicks[0]), clicks[1..])
  }

  /** No sequence of clicks drives a counter below zero; in the vanilla pages adults can reach 0. */
  lemma {:induction false} CountersStayNonNegative(count: int, clicks: seq<CounterButton>)
    requires count >= 0
    ensures CounterClicks(count, clicks) >= 0
    ensures count == 1 ==> CounterClicks(count, [Minus]) == 0
    decreases |clicks|
  {
    if clicks != [] {
      CountersStayNonNegative(CounterClick(count, clicks[0]), clicks[1..]);
    }
  }

  /** The parts of the label "<guests> <guest word>, <rooms> <room word>". */
  datatype GuestLabel = GuestLabel(guests: int, guestWord: string, rooms: string, roomWord: string)

  function Render(l: GuestLabel): string {
    Text.Decimal(l.guests) + " " + l.guestWord + ", " + l.rooms + " " + l.roomWord
  }

  function GuestWord(singular: bool, lang: string): string {
    if lang == "ar" then (if singular then "ضيف" else "ضيوف")
    else (if singular then "Guest" else "Guests")
  }

  function RoomWord(singular: bool, lang: string): string {
    if lang == "ar" then (if singular then "غرفة" else "غرف")
    else (if singular then "Room" else "Rooms")
  }

  /**
   * `updateGuestText` of the vanilla pages: the singular guest word exactly
   * for one guest in total; the singular room word exactly when the rooms
   * counter's text is "1", which is exactly one room. Arabic when the page
   * language is "ar", English otherwise.
   */
  function VanillaGuestLabel(adults: int, children: int, rooms: int, lang: string): (l: GuestLabel)
    ensures l.guests == adults + children && l.rooms == Text.Decimal(rooms)
    ensures l.guestWord == GuestWord(adults + children == 1, lang)
    ensures l.roomWord == RoomWord(rooms == 1, lang)
  {
    var total := adults + children;
    var roomsText := Text.Decimal(rooms);
    Text.DecimalIsOne(rooms);
    GuestLabel(total, GuestWord(total == 1, lang), roomsText, RoomWord(roomsText == "1", lang))
  }

  /** A JavaScript value as `===` compares it. */
  datatype JsValue = Num(n: int) | Str(s: string)

  /** Strict equality: values of different types are never equal. */
  predicate StrictEquals(a: JsValue, b: JsValue) {
    match (a, b)
    case (Num(x), Num(y)) => x == y
    case (Str(x), Str(y)) => x == y
    case _ => false
  }

  /**
   * The React page's label. Its rooms count is a number compared with the
   * string '1', so the room word is "Rooms" for every count; the guest word
   * follows the same rule as the vanilla pages. The label is always English.
   */
  function ReactGuestLabel(adults: int, children: int, rooms: int): (l: GuestLabel)
    ensures l.guests == adults + children && l.rooms == Text.Decimal(rooms)
    ensures l.guestWord == "Guest" <==> adults + children == 1
    ensures l.guestWord in {"Guest", "Guests"}
    ensures l.roomWord == "Rooms"
  {
    var total := adults + children;
    GuestLabel(total, if total == 1 then "Guest" else "Guests", Text.Decimal(rooms),
               if StrictEquals(Num(rooms), Str("1")) then "Room" else "Rooms")
  }

  /** With one room the vanilla label says "Room" and the React label says "Rooms". */
  lemma LabelsDisagreeOnOneRoom(adults: int, children: int)
    ensures VanillaGuestLabel(adults, children, 1, "en").roomWord == "Room"
    ensures ReactGuestLabel(adults, children, 1).roomWord == "Rooms"
    ensures VanillaGuestLabel(adults, children, 1, "en").guestWord == ReactGuestLabel(adults, children, 1).guestWord
  {
  }
}

=== FILE: home_page.dfy ===
/**
 * The React home page: its search-form state and guest counters, the
 * favourites list, the auto-advancing hero slider and its dots. Its
 * translation helper `t` is `I18n.T`, its language button is
 * `I18n.Toggle`, and its deal grid is `Landing.FeaturedDeals`.
 */
module HomePage {
  import opened Selection
  import Booking
  import Guests
  import Text

  /** The `searchData` state: dates, the rendered guest label and the three counters. */
  datatype SearchState = SearchState(checkin: Booking.DateField, checkout: Booking.DateField, guests: string,
                                     adults: int, children: int, rooms: int)

  /** The state the page starts with: no dates, two adults, no children, one room. */
  function InitialState(): (s: SearchState)
    ensures s.checkin.Missing? && s.checkout.Missing?
    ensures s.adults == 2 && s.children == 0 && s.rooms == 1
    ensures s.guests == "2 Adults, 1 Room"
  {
    SearchState(Booking.Missing, Booking.Missing, "2 Adults, 1 Room", 2, 0, 1)
  }

  /** The mount effect: check-in tomorrow and check-out in a week, everything else kept. */
  function WithDefaultDates(s: SearchState, today: int): (r: SearchState)
    ensures r.guests == s.guests && r.adults == s.adults && r.children == s.children && r.rooms == s.rooms
    ensures Booking.ValidateDates(r.checkin, r.checkout, today)
    ensures r.checkin == Booking.Day(today + 1) && Booking.CalculateNights(r.checkin, r.checkout) == 6
  {
    s.(checkin := Booking.Day(today + 1), checkout := Booking.Day(today + 7))
  }

  /**
   * `handleGuestChange(type, change)`: the named counter moves by `change`
   * but not below its floor (one adult, no children, one room); an unknown
   * type moves nothing. The label is then rebuilt.
   */
  function HandleGuestChange(s: SearchState, kind: string, change: int): (r: SearchState)
    ensures r.checkin == s.checkin && r.checkout == s.checkout
    ensures r.adults == (if kind == "adults" then Text.Max(1, s.adults + change) else s.adults)
    ensures r.children == (if kind == "children" then Text.Max(0, s.children + change) else s.children)
    ensures r.rooms == (if kind == "rooms" then Text.Max(1, s.rooms + change) else s.rooms)
    ensures r.guests == Guests.Render(Guests.ReactGuestLabel(r.adults, r.children, r.rooms))
  {
    var adults := if kind == "adults" then Text.Max(1, s.adults + change) else s.adults;
    var children := if kind == "children" then Text.Max(0, s.children + change) else s.children;
    var rooms := if kind == "rooms" then Text.Max(1, s.rooms + change) else s.rooms;
    s.(adults := adults, children := children, rooms := rooms,
       guests := Guests.Render(Guests.ReactGuestLabel(adults, children, rooms)))
  }

  /** The counters never drop below their floors, whatever the clicks, starting from any state that respects them. */
  lemma GuestFloorsHold(s: SearchState, kind: string, change: int)
    requires s.adults >= 1 && s.children >= 0 && s.rooms >= 1
    ensures var r := HandleGuestChange(s, kind, change);
      r.adults >= 1 && r.children >= 0 && r.rooms >= 1
  {
  }

  /** Unlike the vanilla counters, the adult count cannot reach zero here. */
  lemma AdultsStayAtOne(s: SearchState)
    requires s.adults == 1
    ensures HandleGuestChange(s, "adults", -1).adults == 1
  {
  }

  /** One click up and one down restore the counts but not the initial label, which no click ever produces. */
  lemma InitialLabelNotRestored()
    ensures var r := HandleGuestChange(HandleGuestChange(InitialState(), "adults", 1), "adults", -1);
      && r.adults == 2 && r.children == 0 && r.rooms == 1
      && r.guests == "2 Guests, 1 Rooms"
      && r.guests != InitialState().guests
  {
    var r := HandleGuestChange(HandleGuestChange(InitialState(), "adults", 1), "adults", -1);
    assert Text.Decimal(2) == "2" && Text.Decimal(1) == "1";
    assert r.guests[2] == 'G';
  }

  /* ---------------- favourites ---------------- */

  predicate NoDuplicates(s: seq<int>) {
    forall i, j :: 0 <= i < j < |s| ==> s[i] != s[j]
  }

  /** Every element of `s` except those equal to `id`, in order. */
  function Without(s: seq<int>, id: int): (r: seq<int>)
    ensures forall x :: x in r <==> x in s && x != id
    ensures |r| <= |s|
    ensures NoDuplicates(s) ==> NoDuplicates(r)
  {
    if s == [] then []
    else
      var rest := Without(s[1..], id);
      assert NoDuplicates(s) ==> s[0] !in s[1..];
      if s[0] == id then rest else [s[0]] + rest
  }

  /** `toggleFavorite(id)`: drop the id if it is a favourite, append it otherwise. */
  function ToggleFavorite(favorites: seq<int>, id: int): (r: seq<int>)
    ensures id in r <==> id !in favorites
    ensures forall x :: x != id ==> (x in r <==> x in favorites)
    ensures NoDuplicates(favorites) ==> NoDuplicates(r)
  {
    if id in favorites then Without(favorites, id) else favorites + [id]
  }

  /** Toggling twice restores membership, and when the id was not a favourite it restores the list itself. */
  lemma ToggleTwice(favorites: seq<int>, id: int)
    ensures forall x :: x in ToggleFavorite(ToggleFavorite(favorites, id), id) <==> x in favorites
    ensures id !in favorites ==> ToggleFavorite(ToggleFavorite(favorites, id), id) == favorites
  {
    if id !in favorites {
      WithoutAbsent(favorites, id);
      WithoutSnoc(favorites, id);
    }
  }

  lemma {:induction false} WithoutAbsent(s: seq<int>, id: int)
    requires id !in s
    ensures Without(s, id) == s
  {
    if s != [] {
      WithoutAbsent(s[1..], id);
    }
  }

  lemma {:induction false} WithoutSnoc(s: seq<int>, id: int)
    requires id !in s
    ensures Without(s + [id], id) == Without(s, id)
  {
    if s == [] {
      assert [] + [id] == [id];
      assert [id][1..] == [];
    } else {
      assert (s + [id])[1..] == s[1..] + [id];
      WithoutSnoc(s[1..], id);
    }
  }

  /* ---------------- hero slider ---------------- */

  /** Number of hero slides on the page. */
  const SlideCount: nat := 3

  /** One tick of the six-second interval: no move while the guest dropdown is open, else `(prev + 1) % 3`. */
  function SlideTick(slide: int, dropdownOpen: bool): (r: int)
    ensures dropdownOpen ==> r == slide
    ensures !dropdownOpen && 0 <= slide < SlideCount ==> 0 <= r < SlideCount && r == (slide + 1) % SlideCount
  {
    if dropdownOpen then slide else JsRem(slide + 1, SlideCount)
  }

  /** Three ticks with the dropdown closed come back to the starting slide. */
  lemma ThreeTicksCycle(slide: int)
    requires 0 <= slide < SlideCount
    ensures SlideTick(SlideTick(SlideTick(slide, false), false), false) == slide
  {
  }

  /**
   * A dot click sets the slide to its own index; from there the open
   * dropdown holds it and the next tick continues with the following slide.
   */
  lemma DotThenTick(index: nat)
    requires index < SlideCount
    ensures SlideTick(index, true) == index
    ensures SlideTick(index, false) == (index + 1) % SlideCount
  {
  }
}

=== FILE: i18n.dfy ===
/**
 * Translation lookup and the language switch, as the `LanguageManager`
 * class, the landing-page script and the React home page do them: a
 * dotted key is split on '.' and followed through a tree of translations,
 * with the two different "walk" idioms of the sources (`o && o[k]` in a
 * `reduce`, and `value?.[k]` in a loop); `{name}` placeholders are
 * replaced with `String.prototype.replace`; switching language stores the
 * choice, sets the text direction and re-renders the tagged elements.
 */
module I18n {
  import opened Wrappers
  import opened Text

  /* ---------------- the translation tree ---------------- */

  /** A value of the translations JSON: a string or an object of further values. */
  datatype Node = Leaf(text: string) | Branch(children: map<string, Node>)

  /** JavaScript truthiness of a looked-up value: `undefined` and `""` are falsy, objects are not. */
  predicate Truthy(v: Option<Node>) {
    v.Some? && v.value != Leaf("")
  }

  /** The plain path lookup: follow the children named by `ks`; a string has no children. */
  function Lookup(n: Node, ks: seq<string>): Option<Node>
    decreases ks
  {
    if ks == [] then Some(n)
    else match n
      case Leaf(_) => None
      case Branch(m) => if ks[0] in m then Lookup(m[ks[0]], ks[1..]) else None
  }

  /* ---------------- key splitting ---------------- */

  /** `key.split('.')`: the runs between dots, empty ones included; never empty. */
  function Split(s: string): (parts: seq<string>)
    ensures |parts| >= 1
    ensures forall i :: 0 <= i < |parts| ==> '.' !in parts[i]
    decreases |s|
  {
    if '.' !in s then [s]
    else
      var i := IndexOfChar(s, '.');
      [s[..i]] + Split(s[i + 1..])
  }

  /** `parts.join('.')`. */
  function Join(parts: seq<string>): string
    requires |parts| >= 1
  {
    if |parts| == 1 then parts[0] else parts[0] + "." + Join(parts[1..])
  }

  /** Joining the parts of a key gives the key back. */
  lemma {:induction false} JoinSplit(s: string)
    ensures Join(Split(s)) == s
    decreases |s|
  {
    if '.' in s {
      var i := IndexOfChar(s, '.');
      var p, r := s[..i], s[i + 1..];
      assert s == p + "." + r;
      SplitFirst(p, r);
      JoinSplit(r);
      assert ([p] + Split(r))[1..] == Split(r);
    }
  }

  /** A dot-free first segment followed by a dot splits off as the first part. */
  lemma SplitFirst(p: string, r: string)
    requires '.' !in p
    ensures Split(p + "." + r) == [p] + Split(r)
  {
    var s := p + "." + r;
    assert s[|p|] == '.';
    assert s[..|p|] == p;
    IndexOfCharAt(s, '.', |p|);
    assert s[|p| + 1..] == r;
  }

  /** Splitting a join of dot-free parts gives the parts back. */
  lemma {:induction false} SplitJoin(parts: seq<string>)
    requires |parts| >= 1
    requires forall i :: 0 <= i < |parts| ==> '.' !in parts[i]
    ensures Split(Join(parts)) == parts
    decreases |parts|
  {
    if |parts| > 1 {
      var rest := parts[1..];
      SplitJoin(rest);
      SplitFirst(parts[0], Join(rest));
      assert Join(parts) == parts[0] + "." + Join(rest);
      assert parts == [parts[0]] + rest;
    } else {
      assert '.' !in parts[0];
    }
  }

  /* ---------------- the two walks ---------------- */

  /** One step of `(o, k) => o && o[k]`: a falsy accumulator is kept as it is. */
  function Step(acc: Option<Node>, k: string): Option<Node> {
    match acc
    case None => None
    case Some(Leaf(t)) => if t == "" then acc else None
    case Some(Branch(m)) => if k in m then Some(m[k]) else None
  }

  /** `ks.reduce((o, k) => o && o[k], start)`. */
  function Reduce(acc: Option<Node>, ks: seq<string>): Option<Node>
    decreases ks
  {
    if ks == [] then acc else Reduce(Step(acc, ks[0]), ks[1..])
  }

  /** One step of `value = value?.[k]`. */
  function ChainStep(acc: Option<Node>, k: string): Option<Node> {
    match acc
    case Some(Branch(m)) => if k in m then Some(m[k]) else None
    case _ => None
  }

  /** `for (const k of ks) value = value?.[k]`. */
  function Chain(acc: Option<Node>, ks: seq<string>): Option<Node>
    decreases ks
  {
    if ks == [] then acc else Chain(ChainStep(acc, ks[0]), ks[1..])
  }

  /** Once the reduce has hit `undefined` or `""` it stays there. */
  lemma {:induction false} ReduceFalsyStays(acc: Option<Node>, ks: seq<string>)
    requires !Truthy(acc)
    ensures Reduce(acc, ks) == acc
    decreases ks
  {
    if ks != [] {
      ReduceFalsyStays(Step(acc, ks[0]), ks[1..]);
    }
  }

  /** The optional chain is exactly the plain path lookup. */
  lemma {:induction false} ChainIsLookup(n: Node, ks: seq<string>)
    ensures Chain(Some(n), ks) == Lookup(n, ks)
    decreases ks
  {
    if ks != [] {
      var next := ChainStep(Some(n), ks[0]);
      if next.Some? {
        ChainIsLookup(next.value, ks[1..]);
      } else {
        ChainOfNone(ks[1..]);
      }
    }
  }

  lemma {:induction false} ChainOfNone(ks: seq<string>)
    ensures Chain(None, ks) == None
    decreases ks
  {
    if ks != [] {
      ChainOfNone(ks[1..]);
    }
  }

  lemma ChainFrom(start: Option<Node>, ks: seq<string>)
    ensures Chain(start, ks) == if start.Some? then Lookup(start.value, ks) else None
  {
    if start.Some? {
      ChainIsLookup(start.value, ks);
    } else {
      ChainOfNone(ks);
    }
  }

  /**
   * The reduce agrees with the path lookup on every truthy answer and is
   * falsy exactly when the lookup is: the two differ only in returning ""
   * instead of `undefined` when the path runs through an empty string.
   */
  lemma {:induction false} ReduceMatchesLookup(n: Node, ks: seq<string>)
    ensures Truthy(Reduce(Some(n), ks)) <==> Truthy(Lookup(n, ks))
    ensures Truthy(Lookup(n, ks)) ==> Reduce(Some(n), ks) == Lookup(n, ks)
    decreases ks
  {
    if ks != [] {
      var next := Step(Some(n), ks[0]);
      if n == Leaf("") {
        ReduceFalsyStays(next, ks[1..]);
      } else if next.Some? {
        ReduceMatchesLookup(next.value, ks[1..]);
      } else {
        ReduceFalsyStays(None, ks[1..]);
      }
    }
  }

  /** `getNestedTranslation(obj, key)` of the landing page (the same walk as `getTranslation`). */
  function GetNestedTranslation(obj: Option<Node>, key: string): (r: Option<Node>)
    ensures obj.None? ==> r.None?
    ensures obj.Some? ==> (Truthy(r) <==> Truthy(Lookup(obj.value, Split(key))))
    ensures obj.Some? && Truthy(r) ==> r == Lookup(obj.value, Split(key))
  {
    if obj.Some? then
      ReduceMatchesLookup(obj.value, Split(key));
      Reduce(obj, Split(key))
    else
      ReduceFalsyStays(None, Split(key));
      Reduce(obj, Split(key))
  }

  /** `getTranslation(key)` for the current language; a missing language is `undefined`. */
  function GetTranslation(translations: map<string, Node>, lang: string, key: string): (r: Option<Node>)
    ensures lang !in translations ==> r.None?
    ensures Truthy(r) <==> lang in translations && Truthy(Lookup(translations[lang], Split(key)))
    ensures Truthy(r) ==> r == Lookup(translations[lang], Split(key))
  {
    GetNestedTranslation(if lang in translations then Some(translations[lang]) else None, key)
  }

  /** The React page's `t(key)`: the optional-chain walk, falling back to the key itself. */
  function T(translations: map<string, Node>, lang: string, key: string): (r: Node)
    ensures lang in translations && Truthy(Lookup(translations[lang], Split(key))) ==>
              r == Lookup(translations[lang], Split(key)).value
    ensures !(lang in translations && Truthy(Lookup(translations[lang], Split(key)))) ==> r == Leaf(key)
  {
    var start := if lang in translations then Some(translations[lang]) else None;
    var v := Chain(start, Split(key));
    ChainFrom(start, Split(key));
    if Truthy(v) then v.value else Leaf(key)
  }

  /* ---------------- String.prototype.replace with a string pattern ---------------- */

  /** `pat` occurs in `s` starting at position `j`. */
  predicate OccursAt(s: string, pat: string, j: int) {
    0 <= j && j + |pat| <= |s| && s[j..j + |pat|] == pat
  }

  /** The first position where `pat` occurs in `s`. */
  function IndexOf(s: string, pat: string): (r: Option<nat>)
    ensures r.Some? ==> OccursAt(s, pat, r.value)
    ensures r.Some? ==> forall j :: 0 <= j < r.value ==> !OccursAt(s, pat, j)
    ensures r.None? ==> forall j :: !OccursAt(s, pat, j)
    decreases |s|
  {
    if |pat| > |s| then None
    else if s[..|pat|] == pat then Some(0)
    else
      var rest := IndexOf(s[1..], pat);
      OccursShift(s, pat);
      match rest
      case None => None
      case Some(i) => Some(i + 1)
  }

  lemma OccursShift(s: string, pat: string)
    requires |s| >= 1
    ensures forall j :: 1 <= j ==> (OccursAt(s, pat, j) <==> OccursAt(s[1..], pat, j - 1))
  {
    forall j | 1 <= j ensures OccursAt(s, pat, j) <==> OccursAt(s[1..], pat, j - 1) {
      if j + |pat| <= |s| {
        var a, b := s[j..j + |pat|], s[1..][j - 1..j - 1 + |pat|];
        forall k | 0 <= k < |a| ensures a[k] == b[k] {
        }
        assert a == b;
      }
    }
  }

  /**
   * The replacement patterns of a string-pattern `replace`: `$$` is a
   * dollar, `$&` the match, `` $` `` the text before it, `$'` the text after
   * it; with no capture groups every other `$` is literal.
   */
  function Expand(repl: string, matched: string, before: string, after: string): string
    decreases |repl|
  {
    if repl == [] then []
    else if repl[0] == '$' && |repl| >= 2 && repl[1] == '$' then "$" + Expand(repl[2..], matched, before, after)
    else if repl[0] == '$' && |repl| >= 2 && repl[1] == '&' then matched + Expand(repl[2..], matched, before, after)
    else if repl[0] == '$' && |repl| >= 2 && repl[1] == '`' then before + Expand(repl[2..], matched, before, after)
    else if repl[0] == '$' && |repl| >= 2 && repl[1] == '\'' then after + Expand(repl[2..], matched, before, after)
    else [repl[0]] + Expand(repl[1..], matched, before, after)
  }

  /** A replacement without '$' is inserted verbatim. */
  lemma {:induction false} ExpandPlain(repl: string, matched: string, before: string, after: string)
    requires '$' !in repl
    ensures Expand(repl, matched, before, after) == repl
    decreases |repl|
  {
    if repl != [] {
      assert '$' !in repl[1..];
      ExpandPlain(repl[1..], matched, before, after);
      assert repl == [repl[0]] + repl[1..];
    }
  }

  /** `s.replace(pat, repl)`: only the first occurrence is replaced. */
  function ReplaceFirst(s: string, pat: string, repl: string): string {
    match IndexOf(s, pat)
    case None => s
    case Some(i) => s[..i] + Expand(repl, pat, s[..i], s[i + |pat|..]) + s[i + |pat|..]
  }

  /**
   * With a plain replacement, the first occurrence of the pattern is
   * swapped for it and the text around it, later occurrences included, is
   * kept; without an occurrence nothing changes.
   */
  lemma ReplacePlain(s: string, pat: string, repl: string)
    requires '$' !in repl
    ensures IndexOf(s, pat).None? ==> ReplaceFirst(s, pat, repl) == s
    ensures IndexOf(s, pat).Some? ==>
      var i := IndexOf(s, pat).value;
      ReplaceFirst(s, pat, repl) == s[..i] + repl + s[i + |pat|..]
  {
    if IndexOf(s, pat).Some? {
      var i := IndexOf(s, pat).value;
      ExpandPlain(repl, pat, s[..i], s[i + |pat|..]);
    }
  }

  /* ---------------- translateText ---------------- */

  /** The result of `translateText`: a value, or the TypeError of calling `replace` on an object. */
  datatype Outcome = Done(node: Node) | Threw

  /** The placeholder `{name}` that a parameter fills. */
  function Placeholder(name: string): string {
    "{" + name + "}"
  }

  /** A parameter name without braces, so its placeholder has braces only at its ends. */
  predicate BraceFree(name: string) {
    '{' !in name && '}' !in name
  }

  /** The parameter loop: each `{name}` placeholder replaced once, in parameter order. */
  function ApplyParams(n: Node, params: seq<(string, string)>): (r: Outcome)
    ensures r == Threw <==> n.Branch? && params != []
    ensures params == [] ==> r == Done(n)
    ensures n.Leaf? ==> r.Done? && r.node.Leaf?
    decreases |params|
  {
    if params == [] then Done(n)
    else match n
      case Branch(_) => Threw
      case Leaf(t) => ApplyParams(Leaf(ReplaceFirst(t, Placeholder(params[0].0), params[0].1)), params[1..])
  }

  /**
   * One parameter with a plain value: the first `{name}` in the text is
   * swapped for the value and the rest of the text is kept; a text without
   * the placeholder comes back unchanged.
   */
  lemma ApplyOneParam(t: string, name: string, v: string)
    requires '$' !in v
    ensures IndexOf(t, Placeholder(name)).None? ==> ApplyParams(Leaf(t), [(name, v)]) == Done(Leaf(t))
    ensures IndexOf(t, Placeholder(name)).Some? ==>
      var i := IndexOf(t, Placeholder(name)).value;
      ApplyParams(Leaf(t), [(name, v)]) == Done(Leaf(t[..i] + v + t[i + |Placeholder(name)|..]))
  {
    ReplacePlain(t, Placeholder(name), v);
    assert [(name, v)][1..] == [];
  }

  /** The parameters are applied one after another: the loop over `a + b` is the loop over `a`, then over `b`. */
  lemma {:induction false} ApplyParamsConcat(t: string, a: seq<(string, string)>, b: seq<(string, string)>)
    ensures ApplyParams(Leaf(t), a + b) == ApplyParams(ApplyParams(Leaf(t), a).node, b)
    decreases |a|
  {
    if a != [] {
      var u := ReplaceFirst(t, Placeholder(a[0].0), a[0].1);
      assert (a + b)[0] == a[0];
      assert (a + b)[1..] == a[1..] + b;
      ApplyParamsConcat(u, a[1..], b);
      assert ApplyParams(Leaf(t), a + b) == ApplyParams(Leaf(u), a[1..] + b);
      assert ApplyParams(Leaf(t), a) == ApplyParams(Leaf(u), a[1..]);
    } else {
      assert a + b == b;
    }
  }

  /** A text in which no parameter's placeholder occurs comes back unchanged: unmatched placeholders stay. */
  lemma {:induction false} UnmatchedPlaceholdersRemain(t: string, params: seq<(string, string)>)
    requires forall i :: 0 <= i < |params| ==> IndexOf(t, Placeholder(params[i].0)).None?
    ensures ApplyParams(Leaf(t), params) == Done(Leaf(t))
    decreases |params|
  {
    if params != [] {
      assert ReplaceFirst(t, Placeholder(params[0].0), params[0].1) == t;
      assert forall i :: 0 <= i < |params[1..]| ==> params[1..][i] == params[i + 1];
      UnmatchedPlaceholdersRemain(t, params[1..]);
    }
  }

  /** Inside a brace-free placeholder the braces sit only at its two ends. */
  lemma PlaceholderChars(t: string, a: string, i: int)
    requires BraceFree(a) && OccursAt(t, Placeholder(a), i)
    ensures t[i] == '{' && t[i + |a| + 1] == '}'
    ensures t[i + 1..i + |a| + 1] == a
    ensures forall k :: i < k <= i + |a| ==> t[k] != '{' && t[k] != '}'
  {
    var w := t[i..i + |a| + 2];
    assert w == Placeholder(a);
    assert w[0] == '{' && w[|a| + 1] == '}';
    assert w[1..|a| + 1] == a;
    assert forall k :: i < k <= i + |a| ==> t[k] == a[k - i - 1];
  }

  /** Two occurrences of brace-free placeholders either are the same one or do not overlap. */
  lemma PlaceholdersApart(t: string, a: string, m: string, i: int, j: int)
    requires BraceFree(a) && BraceFree(m)
    requires OccursAt(t, Placeholder(a), i) && OccursAt(t, Placeholder(m), j)
    ensures i == j ==> a == m
    ensures i != j ==> j + |Placeholder(m)| <= i || i + |Placeholder(a)| <= j
  {
    PlaceholderChars(t, a, i);
    PlaceholderChars(t, m, j);
  }

  /** Filling a placeholder `{a}` keeps an occurrence of a different placeholder `{m}`. */
  lemma ReplaceKeepsOther(t: string, a: string, v: string, m: string)
    requires BraceFree(a) && BraceFree(m) && a != m
    requires IndexOf(t, Placeholder(m)).Some?
    ensures IndexOf(ReplaceFirst(t, Placeholder(a), v), Placeholder(m)).Some?
  {
    var pm, pa := Placeholder(m), Placeholder(a);
    var j := IndexOf(t, pm).value;
    if IndexOf(t, pa).Some? {
      var i := IndexOf(t, pa).value;
      PlaceholdersApart(t, a, m, i, j);
      var e := Expand(v, pa, t[..i], t[i + |pa|..]);
      var u := t[..i] + e + t[i + |pa|..];
      assert ReplaceFirst(t, pa, v) == u;
      if j + |pm| <= i {
        OccursInPrefix(t, i, pm, j);
        OccursKeptLeft(t[..i], e, t[i + |pa|..], pm, j);
      } else {
        OccursInSuffix(t, i + |pa|, pm, j);
        OccursKeptRight(t[..i], e, t[i + |pa|..], pm, j - i - |pa|);
      }
    }
  }

  lemma OccursInPrefix(t: string, k: int, pat: string, j: int)
    requires OccursAt(t, pat, j) && j + |pat| <= k <= |t|
    ensures OccursAt(t[..k], pat, j)
  {
    assert t[..k][j..j + |pat|] == t[j..j + |pat|];
  }

  lemma OccursInSuffix(t: string, k: int, pat: string, j: int)
    requires OccursAt(t, pat, j) && 0 <= k <= j
    ensures OccursAt(t[k..], pat, j - k)
  {
    assert t[k..][j - k..j - k + |pat|] == t[j..j + |pat|];
  }

  lemma OccursKeptLeft(x: string, e: string, y: string, pat: string, j: int)
    requires OccursAt(x, pat, j)
    ensures OccursAt(x + e + y, pat, j)
  {
    assert (x + e + y)[j..j + |pat|] == x[j..j + |pat|];
  }

  lemma OccursKeptRight(x: string, e: string, y: string, pat: string, j: int)
    requires OccursAt(y, pat, j)
    ensures OccursAt(x + e + y, pat, |x| + |e| + j)
  {
    var k := |x| + |e| + j;
    assert (x + e + y)[k..k + |pat|] == y[j..j + |pat|];
  }

  /**
   * With brace-free parameter names, a placeholder `{m}` that names no
   * parameter and occurs in the text still occurs in the result, whatever
   * else the parameters fill in.
   */
  lemma {:induction false} UnnamedPlaceholderSurvives(t: string, params: seq<(string, string)>, m: string)
    requires BraceFree(m) && IndexOf(t, Placeholder(m)).Some?
    requires forall i :: 0 <= i < |params| ==> BraceFree(params[i].0) && params[i].0 != m
    ensures IndexOf(ApplyParams(Leaf(t), params).node.text, Placeholder(m)).Some?
    decreases |params|
  {
    if params != [] {
      ReplaceKeepsOther(t, params[0].0, params[0].1, m);
      assert forall i :: 0 <= i < |params[1..]| ==> params[1..][i] == params[i + 1];
      UnnamedPlaceholderSurvives(ReplaceFirst(t, Placeholder(params[0].0), params[0].1), params[1..], m);
    }
  }

  /** `translateText(key, params)`: the translation, or the key when it is falsy, with the parameters filled in. */
  function TranslateText(translations: map<string, Node>, lang: string, key: string,
                         params: seq<(string, string)>): (r: Outcome)
    ensures var found := lang in translations && Truthy(Lookup(translations[lang], Split(key)));
      && (found ==> r == ApplyParams(Lookup(translations[lang], Split(key)).value, params))
      && (!found ==> r == ApplyParams(Leaf(key), params))
    ensures r == Threw <==> params != [] && lang in translations && Truthy(Lookup(translations[lang], Split(key)))
                            && Lookup(translations[lang], Split(key)).value.Branch?
  {
    var g := GetTranslation(translations, lang, key);
    ApplyParams(if Truthy(g) then g.value else Leaf(key), params)
  }

  /** Without parameters `translateText` gives what the React page's `t` gives. */
  lemma TranslateAgreesWithT(translations: map<string, Node>, lang: string, key: string)
    ensures TranslateText(translations, lang, key, []) == Done(T(translations, lang, key))
  {
    if lang in translations {
      ReduceMatchesLookup(translations[lang], Split(key));
    } else {
      ReduceFalsyStays(None, Split(key));
    }
  }

  /** An occurrence with none before it is the one `IndexOf` finds. */
  lemma FirstOccurrence(s: string, pat: string, i: nat)
    requires OccursAt(s, pat, i)
    requires forall j :: 0 <= j < i ==> !OccursAt(s, pat, j)
    ensures IndexOf(s, pat) == Some(i)
  {
  }

  /** A placeholder that occurs twice is filled in only at its first occurrence. */
  lemma SecondPlaceholderSurvives()
    ensures ApplyParams(Leaf("{n} of {n}"), [("n", "3")]) == Done(Leaf("3 of {n}"))
  {
    assert Placeholder("n") == "{n}";
    FirstPlaceholderFilled();
    assert ApplyParams(Leaf("{n} of {n}"), [("n", "3")]) == ApplyParams(Leaf("3 of {n}"), []);
  }

  lemma FirstPlaceholderFilled()
    ensures ReplaceFirst("{n} of {n}", "{n}", "3") == "3 of {n}"
  {
    var s := "{n} of {n}";
    assert s[..3] == "{n}";
    FirstOccurrence(s, "{n}", 0);
    ExpandPlain("3", "{n}", "", s[3..]);
    assert "3" + s[3..] == "3 of {n}";
  }

  /** A `$$` in a parameter value comes out as a single dollar. */
  lemma DollarInValue()
    ensures ReplaceFirst("Total: {p}", "{p}", "$$5") == "Total: $5"
  {
    var s := "Total: {p}";
    PlaceholderAtSeven();
    DoubleDollar(s[..7]);
    assert s[..7] + "$5" + s[10..] == "Total: $5";
  }

  lemma PlaceholderAtSeven()
    ensures IndexOf("Total: {p}", "{p}") == Some(7)
  {
    var s := "Total: {p}";
    assert s[7..10] == "{p}";
    forall j | 0 <= j < 7 ensures !OccursAt(s, "{p}", j) {
      assert s[j..j + 3][0] == s[j];
    }
    FirstOccurrence(s, "{p}", 7);
  }

  lemma DoubleDollar(before: string)
    ensures Expand("$$5", "{p}", before, "") == "$5"
  {
    ExpandPlain("5", "{p}", before, "");
    assert "$$5"[2..] == "5";
  }

  /* ---------------- the language switch ---------------- */

  /** The language the toggle switches to: Arabic from English, English from anything else. */
  function Toggle(lang: string): (r: string)
    ensures r == "ar" || r == "en"
    ensures r == "ar" <==> lang == "en"
  {
    if lang == "en" then "ar" else "en"
  }

  /** On the two supported languages the toggle is its own inverse; anything else falls to English first. */
  lemma ToggleInvolution(lang: string)
    ensures lang == "en" || lang == "ar" ==> Toggle(Toggle(lang)) == lang
    ensures lang != "en" && lang != "ar" ==> Toggle(lang) == "en" && Toggle(Toggle(lang)) == "ar"
  {
  }

  /** `localStorage.getItem('language') || 'en'`: a missing or empty stored value gives English. */
  function InitialLanguage(storage: map<string, string>): (lang: string)
    ensures lang != ""
    ensures "language" in storage && storage["language"] != "" ==> lang == storage["language"]
    ensures !("language" in storage && storage["language"] != "") ==> lang == "en"
  {
    if "language" in storage && storage["language"] != "" then storage["language"] else "en"
  }

  datatype Dir = Ltr | Rtl

  /** An element carrying `data-i18n`: its tag, input type, placeholder, inner HTML and key. */
  datatype Element = Element(tag: string, inputType: string, placeholder: string, inner: string, key: string)

  /** Which script re-renders the elements: the `LanguageManager` class or the landing-page script. */
  datatype Script = LanguageManager | LandingPage

  /** A translation as it lands in the page: a string, or an object converted to a string. */
  function Render(n: Node): string {
    match n
    case Leaf(t) => t
    case Branch(_) => "[object Object]"
  }

  /**
   * The per-element rule of `updateTranslations`: nothing happens for a
   * falsy translation; an e-mail input gets it as placeholder; for the
   * `LanguageManager` so does any input that already has a placeholder;
   * everything else gets it as inner HTML.
   */
  function ApplyTranslation(e: Element, tr: Option<Node>, script: Script): (r: Element)
    ensures !Truthy(tr) ==> r == e
    ensures r.tag == e.tag && r.inputType == e.inputType && r.key == e.key
    ensures Truthy(tr) ==> r == e.(placeholder := Render(tr.value)) || r == e.(inner := Render(tr.value))
    ensures Truthy(tr) && e.tag == "INPUT" && e.inputType == "email" ==> r == e.(placeholder := Render(tr.value))
    ensures Truthy(tr) && script == LanguageManager && e.tag == "INPUT" && e.placeholder != "" ==>
      r == e.(placeholder := Render(tr.value))
    ensures Truthy(tr) && e.tag != "INPUT" ==> r == e.(inner := Render(tr.value))
    ensures Truthy(tr) && e.inputType != "email" && (script == LandingPage || e.placeholder == "") ==>
      r == e.(inner := Render(tr.value))
  {
    if !Truthy(tr) then e
    else if e.tag == "INPUT" && e.inputType == "email" then e.(placeholder := Render(tr.value))
    else if script == LanguageManager && e.tag == "INPUT" && e.placeholder != "" then e.(placeholder := Render(tr.value))
    else e.(inner := Render(tr.value))
  }

  /**
   * The two scripts render an element the same way unless it is a
   * non-e-mail input that has a placeholder: there the class replaces the
   * placeholder and the landing script the inner HTML.
   */
  lemma ScriptsAgree(e: Element, tr: Option<Node>)
    ensures !(Truthy(tr) && e.tag == "INPUT" && e.inputType != "email" && e.placeholder != "") ==>
      ApplyTranslation(e, tr, LanguageManager) == ApplyTranslation(e, tr, LandingPage)
    ensures Truthy(tr) && e.tag == "INPUT" && e.inputType != "email" && e.placeholder != "" ==>
      && ApplyTranslation(e, tr, LanguageManager) == e.(placeholder := Render(tr.value))
      && ApplyTranslation(e, tr, LandingPage) == e.(inner := Render(tr.value))
  {
  }

  /** Rendering the same translation twice changes nothing more. */
  lemma ApplyTranslationIdempotent(e: Element, tr: Option<Node>, script: Script)
    ensures ApplyTranslation(ApplyTranslation(e, tr, script), tr, script) == ApplyTranslation(e, tr, script)
  {
    if Truthy(tr) && tr.value.Leaf? {
      assert Render(tr.value) != "";
    }
  }

  /** `updateTranslations` over all tagged elements. */
  function UpdateTranslations(elements: seq<Element>, translations: map<string, Node>, lang: string,
                              script: Script): (r: seq<Element>)
    ensures |r| == |elements|
    ensures forall i :: 0 <= i < |r| ==>
      r[i].tag == elements[i].tag && r[i].inputType == elements[i].inputType && r[i].key == elements[i].key
    ensures forall i :: 0 <= i < |r| && !(lang in translations && Truthy(Lookup(translations[lang], Split(elements[i].key)))) ==>
      r[i] == elements[i]
    ensures forall i :: 0 <= i < |r| && lang in translations && Truthy(Lookup(translations[lang], Split(elements[i].key))) ==>
      var text := Render(Lookup(translations[lang], Split(elements[i].key)).value);
      r[i] == elements[i].(placeholder := text) || r[i] == elements[i].(inner := text)
  {
    seq(|elements|, i requires 0 <= i < |elements| =>
      ApplyTranslation(elements[i], GetTranslation(translations, lang, elements[i].key), script))
  }

  /** The page state the language switch touches. */
  datatype Page = Page(lang: string, dir: Dir, storage: map<string, string>, buttonText: string, elements: seq<Element>)

  /** `toUpperCase` on the ASCII letters of a language code. */
  function AsciiUpper(s: string): (u: string)
    ensures |u| == |s|
    ensures forall i :: 0 <= i < |s| && 'a' <= s[i] <= 'z' ==> u[i] as int == s[i] as int - 32
    ensures forall i :: 0 <= i < |s| && !('a' <= s[i] <= 'z') ==> u[i] == s[i]
    ensures forall i :: 0 <= i < |u| ==> !('a' <= u[i] <= 'z')
  {
    seq(|s|, i requires 0 <= i < |s| => if 'a' <= s[i] <= 'z' then (s[i] as int - 32) as char else s[i])
  }

  /**
   * `setLanguage(lang)`: record and store the language, set the direction
   * (right-to-left for Arabic only), relabel the button and re-render every
   * tagged element.
   */
  function SetLanguage(p: Page, translations: map<string, Node>, lang: string, script: Script): (r: Page)
    ensures r.lang == lang && r.storage == p.storage["language" := lang]
    ensures r.dir == Rtl <==> lang == "ar"
    ensures |r.elements| == |p.elements|
    ensures forall i :: 0 <= i < |r.elements| ==>
      r.elements[i] == ApplyTranslation(p.elements[i], GetTranslation(translations, lang, p.elements[i].key), script)
    ensures r.buttonText == AsciiUpper(lang)
  {
    Page(lang, if lang == "ar" then Rtl else Ltr, p.storage["language" := lang], AsciiUpper(lang),
         UpdateTranslations(p.elements, translations, lang, script))
  }

  /** The language button reads "AR" after switching to Arabic and "EN" after switching to English. */
  lemma ButtonLabels(p: Page, translations: map<string, Node>, script: Script)
    ensures SetLanguage(p, translations, "ar", script).buttonText == "AR"
    ensures SetLanguage(p, translations, "en", script).buttonText == "EN"
  {
    assert AsciiUpper("ar") == "AR";
    assert AsciiUpper("en") == "EN";
  }

  /** A language that was set is the one the next page load starts with. */
  lemma LanguagePersists(p: Page, translations: map<string, Node>, lang: string, script: Script)
    requires lang != ""
    ensures InitialLanguage(SetLanguage(p, translations, lang, script).storage) == lang
  {
  }

  /** Setting the same language again leaves the page as it is. */
  lemma SetLanguageIdempotent(p: Page, translations: map<string, Node>, lang: string, script: Script)
    ensures var q := SetLanguage(p, translations, lang, script);
      SetLanguage(q, translations, lang, script) == q
  {
    var q := SetLanguage(p, translations, lang, script);
    var q2 := SetLanguage(q, translations, lang, script);
    forall i | 0 <= i < |q.elements| ensures q2.elements[i] == q.elements[i] {
      ApplyTranslationIdempotent(p.elements[i], GetTranslation(translations, lang, p.elements[i].key), script);
    }
    assert q2.elements == q.elements;
  }

  /** Clicking the toggle on an English or Arabic page flips the text direction. */
  lemma ToggleFlipsDirection(p: Page, translations: map<string, Node>, script: Script)
    requires p.lang == "en" || p.lang == "ar"
    ensures var q := SetLanguage(p, translations, Toggle(p.lang), script);
      q.dir == (if p.lang == "en" then Rtl else Ltr)
  {
  }
}

=== FILE: landing.dfy ===
/**
 * The home-page script of the static site: the hero slider and the
 * testimonial rotator, the default search dates and the featured-deals
 * selection.
 */
module Landing {
  import opened Wrappers
  import opened Selection
  import Booking

  /* ---------------- hero slider and testimonials ---------------- */

  /**
   * A rotator: the current position, the per-item visibility flag (the
   * slide's `active` class, or the testimonial card's `display: block`) and
   * the per-dot `active` flag.
   */
  datatype Rotator = Rotator(current: nat, items: seq<bool>, dots: seq<bool>)

  /** The positions line up: as many dots as items, and the current one is among them. */
  predicate WellFormed(r: Rotator) {
    |r.items| == |r.dots| && r.current < |r.items|
  }

  /** Exactly the current item and the current dot are lit. */
  predicate Consistent(r: Rotator) {
    WellFormed(r) && OnlyAt(r.items, r.current) && OnlyAt(r.dots, r.current)
  }

  /**
   * `initializeHeroSlider`: nothing happens without slides; otherwise the
   * slides keep the `active` classes the markup gave them and one dot per
   * slide is created, the first one active.
   */
  function InitHero(slides: seq<bool>): (r: Option<Rotator>)
    ensures slides == [] <==> r.None?
    ensures r.Some? ==> WellFormed(r.value) && r.value.current == 0 && r.value.items == slides
    ensures r.Some? ==> OnlyAt(r.value.dots, 0)
  {
    if slides == [] then None else Some(Rotator(0, slides, Select(|slides|, 0)))
  }

  /** The testimonial rotator: one card and one dot per testimonial, the first shown and active. */
  function InitTestimonials(n: nat): (r: Rotator)
    requires n > 0
    ensures Consistent(r) && r.current == 0 && |r.items| == n
  {
    Rotator(0, Select(n, 0), Select(n, 0))
  }

  /**
   * `goToSlide(k)` / `goToTestimonial(k)`: switch off the current item and
   * dot, then switch on item and dot `k`. Other flags are not touched.
   */
  function GoTo(r: Rotator, k: nat): (q: Rotator)
    requires WellFormed(r) && k < |r.items|
    ensures WellFormed(q) && q.current == k && |q.items| == |r.items|
    ensures q.items[k] && q.dots[k]
    ensures k != r.current ==> !q.items[r.current] && !q.dots[r.current]
    ensures forall j :: 0 <= j < |q.items| && j != k && j != r.current ==> q.items[j] == r.items[j] && q.dots[j] == r.dots[j]
  {
    Rotator(k, r.items[r.current := false][k := true], r.dots[r.current := false][k := true])
  }

  /** Moving a consistent rotator keeps exactly one item and one dot lit. */
  lemma GoToKeepsOneLit(r: Rotator, k: nat)
    requires Consistent(r) && k < |r.items|
    ensures Consistent(GoTo(r, k))
    ensures CountTrue(GoTo(r, k).items) == 1 && CountTrue(GoTo(r, k).dots) == 1
  {
    var q := GoTo(r, k);
    assert q.items == Select(|r.items|, k);
    assert q.dots == Select(|r.dots|, k);
    OnlyAtCountsOne(q.items, k);
    OnlyAtCountsOne(q.dots, k);
  }

  /** A slide the markup marked active is left active by moving elsewhere: only the current one is switched off. */
  lemma StrayActiveSlideStays(r: Rotator, k: nat, stray: nat)
    requires WellFormed(r) && k < |r.items| && stray < |r.items|
    requires stray != r.current && r.items[stray]
    ensures GoTo(r, k).items[stray]
  {
  }

  /** The next button and the auto-play timer: `(current + 1) % length`. */
  function NextItem(r: Rotator): (q: Rotator)
    requires WellFormed(r)
    ensures WellFormed(q) && |q.items| == |r.items|
    ensures q.current == (r.current + 1) % |r.items|
    ensures Consistent(r) ==> Consistent(q)
  {
    var n := Next(At(r.current), |r.items|);
    if Consistent(r) then GoToKeepsOneLit(r, n.i); GoTo(r, n.i) else GoTo(r, n.i)
  }

  /** The previous button: `(current - 1 + length) % length`. */
  function PrevItem(r: Rotator): (q: Rotator)
    requires WellFormed(r)
    ensures WellFormed(q) && |q.items| == |r.items|
    ensures q.current == (r.current - 1 + |r.items|) % |r.items|
    ensures Consistent(r) ==> Consistent(q)
  {
    var p := Prev(At(r.current), |r.items|);
    if Consistent(r) then GoToKeepsOneLit(r, p.i); GoTo(r, p.i) else GoTo(r, p.i)
  }

  /** A consistent rotator is determined by its position. */
  lemma ConsistentIsSelect(r: Rotator)
    requires Consistent(r)
    ensures r == Rotator(r.current, Select(|r.items|, r.current), Select(|r.items|, r.current))
  {
  }

  lemma SamePosition(q: Rotator, r: Rotator)
    requires Consistent(q) && Consistent(r)
    requires q.current == r.current && |q.items| == |r.items|
    ensures q == r
  {
    ConsistentIsSelect(q);
    ConsistentIsSelect(r);
  }

  /** Previous undoes next on a consistent rotator, and next moves to `(current + 1) mod length`. */
  lemma NextThenPrev(r: Rotator)
    requires Consistent(r)
    ensures NextItem(r).current == (r.current + 1) % |r.items|
    ensures Consistent(NextItem(r))
    ensures PrevItem(NextItem(r)) == r
  {
    var n := |r.items|;
    PrevNextInverse(r.current, n);
    if r.current + 1 < n { ModBelow(r.current + 1, n); } else { ModAtLength(n); }
    GoToKeepsOneLit(r, NextItem(r).current);
    var q := NextItem(r);
    GoToKeepsOneLit(q, PrevItem(q).current);
    ConsistentIsSelect(PrevItem(q));
    ConsistentIsSelect(r);
  }

  /** `k` presses of next (or `k` auto-play ticks). */
  function Ticks(r: Rotator, k: nat): (q: Rotator)
    requires WellFormed(r)
    ensures WellFormed(q) && |q.items| == |r.items|
  {
    if k == 0 then r else NextItem(Ticks(r, k - 1))
  }

  /** Ticking a consistent rotator moves its position exactly as the index arithmetic's `Advance` does. */
  lemma {:induction false} TicksFollowAdvance(r: Rotator, k: nat)
    requires Consistent(r)
    ensures Consistent(Ticks(r, k))
    ensures At(Ticks(r, k).current) == Advance(At(r.current), |r.items|, k)
  {
    if k > 0 {
      TicksFollowAdvance(r, k - 1);
      var q := Ticks(r, k - 1);
      NextThenPrev(q);
      assert Ticks(r, k) == NextItem(q);
    }
  }

  /** After `k` ticks a consistent rotator shows item `(current + k) mod length`. */
  lemma TicksAreModular(r: Rotator, k: nat)
    requires Consistent(r)
    ensures Consistent(Ticks(r, k)) && Ticks(r, k).current == (r.current + k) % |r.items|
  {
    TicksFollowAdvance(r, k);
    AdvanceIsModular(r.current, |r.items|, k);
  }

  /** A full round of ticks brings a consistent rotator back to where it was. */
  lemma FullRound(r: Rotator, k: nat)
    requires Consistent(r) && k == |r.items|
    ensures Ticks(r, k) == r
  {
    var q := Ticks(r, k);
    TicksAreModular(r, k);
    ModShift(r.current, k);
    SamePosition(q, r);
  }

  /* ---------------- default search dates ---------------- */

  /** The two date inputs after `setDefaultDates`: values and minimums, as day numbers. */
  datatype DefaultDates = DefaultDates(checkin: int, checkout: int, checkinMin: int, checkoutMin: int)

  /** `setDefaultDates`: check-in tomorrow, check-out in a week; check-in not before today, check-out not before tomorrow. */
  function SetDefaultDates(today: int): (d: DefaultDates)
    ensures d.checkin == today + 1 && d.checkout == today + 7
    ensures d.checkinMin == today && d.checkoutMin == today + 1
  {
    DefaultDates(today + 1, today + 7, today, today + 1)
  }

  /** The defaults respect their own minimums and pass the booking page's validation, for six nights. */
  lemma DefaultDatesValid(today: int)
    ensures var d := SetDefaultDates(today);
      && d.checkin >= d.checkinMin && d.checkout >= d.checkoutMin
      && Booking.ValidateDates(Booking.Day(d.checkin), Booking.Day(d.checkout), today)
      && Booking.CalculateNights(Booking.Day(d.checkin), Booking.Day(d.checkout)) == 6
  {
  }

  /* ---------------- featured deals ---------------- */

  /** A hotel as far as the deal list reads it: `discount` is absent (undefined) or a number. */
  datatype Hotel = Hotel(id: int, discount: Option<int>)

  /** `hotel.discount` is truthy: present and non-zero. */
  predicate OnDeal(h: Hotel) {
    h.discount.Some? && h.discount.value != 0
  }

  /** `hotels.filter(hotel => hotel.discount)`. */
  function Discounted(hotels: seq<Hotel>): (r: seq<Hotel>)
    ensures |r| <= |hotels|
    ensures forall i :: 0 <= i < |r| ==> OnDeal(r[i])
    ensures forall h :: h in r <==> h in hotels && OnDeal(h)
  {
    if hotels == [] then []
    else (if OnDeal(hotels[0]) then [hotels[0]] else []) + Discounted(hotels[1..])
  }

  lemma {:induction false} DiscountedConcat(a: seq<Hotel>, b: seq<Hotel>)
    ensures Discounted(a + b) == Discounted(a) + Discounted(b)
  {
    if a == [] {
      assert a + b == b;
    } else {
      assert (a + b)[1..] == a[1..] + b;
      DiscountedConcat(a[1..], b);
    }
  }

  /** One hotel is kept exactly when it is on deal; with `DiscountedConcat` this fixes the filter's order and multiplicity. */
  lemma DiscountedSingleton(h: Hotel)
    ensures Discounted([h]) == if OnDeal(h) then [h] else []
  {
    assert [h][1..] == [];
  }

  /** A catalogue in which every hotel is on deal is kept whole, in its own order. */
  lemma {:induction false} AllOnDealKept(hotels: seq<Hotel>)
    requires forall i :: 0 <= i < |hotels| ==> OnDeal(hotels[i])
    ensures Discounted(hotels) == hotels
  {
    if hotels != [] {
      AllOnDealKept(hotels[1..]);
    }
  }

  /** The deal list: the first four discounted hotels, in catalogue order. */
  function FeaturedDeals(hotels: seq<Hotel>): (r: seq<Hotel>)
    ensures |r| == if |Discounted(hotels)| < 4 then |Discounted(hotels)| else 4
    ensures r == Discounted(hotels)[..|r|]
  {
    var d := Discounted(hotels);
    if |d| <= 4 then d else d[..4]
  }

  /** Once four discounted hotels have been seen, the rest of the catalogue no longer matters. */
  lemma DealsIgnoreTail(front: seq<Hotel>, back: seq<Hotel>)
    requires |Discounted(front)| >= 4
    ensures FeaturedDeals(front + back) == FeaturedDeals(front)
  {
    DiscountedConcat(front, back);
    assert (Discounted(front) + Discounted(back))[..4] == Discounted(front)[..4];
  }

  /** A hotel with a zero discount is never featured. */
  lemma ZeroDiscountNotFeatured(hotels: seq<Hotel>, h: Hotel)
    requires h.discount == Some(0)
    ensures h !in FeaturedDeals(hotels)
  {
  }
}

=== FILE: patterns.dfy ===
/**
 * The two regular expressions of the front end written as explicit
 * predicates: the e-mail pattern `^[^\s@]+@[^\s@]+\.[^\s@]+$` (used by the
 * form validator and by the utility `validateEmail`) and the phone pattern
 * `^\+?[\d\s\-\(\)]+$`.
 */
module Patterns {
  import opened Text

  /** A character `[^\s@]` accepts. */
  predicate EmailChar(c: char) {
    !IsJsWhitespace(c) && c != '@'
  }

  predicate EmailChars(s: string) {
    forall i :: 0 <= i < |s| ==> EmailChar(s[i])
  }

  /**
   * The e-mail pattern read as a regular expression: the string splits as
   * local + "@" + host + "." + tail, three non-empty runs of `[^\s@]`.
   */
  ghost predicate EmailRegex(s: string) {
    exists at, dot :: 0 < at && at + 1 < dot && dot + 1 < |s| && s[at] == '@' && s[dot] == '.'
                      && EmailChars(s[..at]) && EmailChars(s[at + 1..dot]) && EmailChars(s[dot + 1..])
  }

  predicate NoWhitespace(s: string) {
    forall i :: 0 <= i < |s| ==> !IsJsWhitespace(s[i])
  }

  /**
   * `isValidEmail` / `validateEmail`: no whitespace, exactly one '@' with
   * something before it, and after it a '.' that is neither the first nor
   * the last character of the part after the '@'.
   */
  function IsValidEmail(s: string): (r: bool)
    ensures r <==> EmailRegex(s)
  {
    EmailRegexIff(s);
    EmailConditions(s)
  }

  predicate EmailConditions(s: string) {
    && NoWhitespace(s)
    && '@' in s
    && var at := IndexOfChar(s, '@');
       && at > 0
       && '@' !in s[at + 1..]
       && at + 2 < |s|
       && '.' in s[at + 2..|s| - 1]
  }

  lemma EmailRegexIff(s: string)
    ensures EmailConditions(s) <==> EmailRegex(s)
  {
    if EmailRegex(s) {
      RegexGivesConditions(s);
    }
    if EmailConditions(s) {
      ConditionsGiveRegex(s);
    }
  }

  lemma RegexGivesConditions(s: string)
    requires EmailRegex(s)
    ensures EmailConditions(s)
  {
    var at, dot :| 0 < at && at + 1 < dot && dot + 1 < |s| && s[at] == '@' && s[dot] == '.'
                    && EmailChars(s[..at]) && EmailChars(s[at + 1..dot]) && EmailChars(s[dot + 1..]);
    RegexRuns(s, at, dot);
    assert NoWhitespace(s);
    assert '@' !in s[at + 1..];
    assert IndexOfChar(s, '@') == at;
    assert s[at + 2..|s| - 1][dot - at - 2] == '.';
  }

  /** In the split local + "@" + host + "." + tail, every character but the '@' is one `[^\s@]` accepts. */
  lemma RegexRuns(s: string, at: nat, dot: nat)
    requires 0 < at && at + 1 < dot && dot + 1 < |s| && s[at] == '@' && s[dot] == '.'
    requires EmailChars(s[..at]) && EmailChars(s[at + 1..dot]) && EmailChars(s[dot + 1..])
    ensures forall i :: 0 <= i < |s| && i != at ==> EmailChar(s[i])
  {
    forall i | 0 <= i < |s| && i != at ensures EmailChar(s[i]) {
      if i < at { assert s[..at][i] == s[i]; }
      else if at < i < dot { assert s[at + 1..dot][i - at - 1] == s[i]; }
      else if i > dot { assert s[dot + 1..][i - dot - 1] == s[i]; }
    }
  }

  lemma ConditionsGiveRegex(s: string)
    requires EmailConditions(s)
    ensures EmailRegex(s)
  {
    var at := IndexOfChar(s, '@');
    var k :| 0 <= k < |s[at + 2..|s| - 1]| && s[at + 2..|s| - 1][k] == '.';
    var dot := at + 2 + k;
    assert s[dot] == '.';
    forall i | 0 <= i < |s| && i != at ensures EmailChar(s[i]) {
      if i < at {
        assert s[i] == s[..at][i];
      } else {
        assert s[i] == s[at + 1..][i - at - 1];
      }
    }
    assert EmailChars(s[..at]);
    assert EmailChars(s[at + 1..dot]);
    assert EmailChars(s[dot + 1..]);
  }

  /** An ordinary address passes. */
  lemma EmailAccepted()
    ensures IsValidEmail("guest@hotel.com")
  {
    var s := "guest@hotel.com";
    assert s[..5] == "guest" && s[6..11] == "hotel" && s[12..] == "com";
    assert EmailChars("guest") && EmailChars("hotel") && EmailChars("com");
    assert s[5] == '@' && s[11] == '.';
    assert EmailRegex(s);
  }

  /** Without any '.' an address is rejected. */
  lemma NoDotRejected(s: string)
    requires '.' !in s
    ensures !IsValidEmail(s)
  {
  }

  /** Without a dot after the '@' the address is rejected. */
  lemma EmailNeedsDot()
    ensures !IsValidEmail("guest@hotel")
  {
    NoDotRejected("guest@hotel");
  }

  /** Nothing before the '@': rejected. */
  lemma EmailNeedsLocalPart()
    ensures !IsValidEmail("@hotel.com")
  {
    var s := "@hotel.com";
    assert IsValidEmail(s) == EmailConditions(s);
    assert IndexOfChar(s, '@') == 0;
  }

  /** An address whose only '@' is followed by its last '.' has an empty host and is rejected. */
  lemma EmptyHostRejected(s: string, a: nat)
    requires a + 1 < |s| && s[a] == '@' && s[a + 1] == '.'
    requires forall i :: 0 <= i < |s| && s[i] == '@' ==> i == a
    requires forall i :: a + 1 < i < |s| ==> s[i] != '.'
    ensures !IsValidEmail(s)
  {
  }

  /** A dot straight after the '@': rejected. */
  lemma EmailNeedsHost()
    ensures !IsValidEmail("guest@.com")
  {
    EmptyHostRejected("guest@.com", 5);
  }

  /** A second '@': rejected. */
  lemma EmailSingleAt()
    ensures !IsValidEmail("a@b@c.d")
  {
    var s := "a@b@c.d";
    assert IsValidEmail(s) == EmailConditions(s);
    if NoWhitespace(s) && '@' in s {
      assert IndexOfChar(s, '@') == 1;
      assert s[2..][1] == '@';
    }
  }

  /** A space anywhere: rejected. */
  lemma EmailNoSpace()
    ensures !IsValidEmail("a b@c.d")
  {
    var s := "a b@c.d";
    assert IsValidEmail(s) == EmailConditions(s);
    assert IsJsWhitespace(s[1]);
  }

  /** A character of the class `[\d\s\-\(\)]`; `\d` is ASCII digits only. */
  predicate PhoneChar(c: char) {
    IsDigit(c) || IsJsWhitespace(c) || c == '-' || c == '(' || c == ')'
  }

  predicate PhoneChars(s: string) {
    forall i :: 0 <= i < |s| ==> PhoneChar(s[i])
  }

  /**
   * `validatePhone`: an optional leading '+' and then one or more phone
   * characters. A digit is not required, and '+' may appear only first.
   */
  function ValidatePhone(s: string): (r: bool)
    ensures r <==> |s| >= 1 && s != "+" && forall i :: 0 <= i < |s| ==> PhoneChar(s[i]) || (i == 0 && s[i] == '+')
  {
    var body := if |s| > 0 && s[0] == '+' then s[1..] else s;
    assert forall i :: 0 <= i < |body| ==> body[i] == s[i + |s| - |body|];
    |body| >= 1 && PhoneChars(body)
  }

  /** Digits, spaces, dashes and parentheses are all phone characters. */
  lemma PhoneCharsOf(s: string)
    requires forall i :: 0 <= i < |s| ==> IsDigit(s[i]) || s[i] in " -()"
    ensures PhoneChars(s)
  {
    assert IsJsWhitespace(' ');
  }

  /** A formatted number passes. */
  lemma PhoneAccepted()
    ensures ValidatePhone("+1 (555) 010-2000")
  {
    var s := "+1 (555) 010-2000";
    var body := "1 (555) 010-2000";
    assert s[1..] == body;
    PhoneCharsOf(body);
  }

  /** No digit is needed: a run of dashes passes. */
  lemma PhoneWithoutDigits()
    ensures ValidatePhone("---")
  {
  }

  /** The empty string, a lone '+', a second '+' and a '.' are rejected. */
  lemma PhoneRejected()
    ensures !ValidatePhone("")
    ensures !ValidatePhone("+")
    ensures !ValidatePhone("++1")
    ensures !ValidatePhone("555.0100")
  {
    assert !PhoneChar("++1"[1]);
    assert !PhoneChar("555.0100"[3]);
  }
}

=== FILE: price_filter.dfy ===
/**
 * The two-thumb price-range filter: a pair of bounds that the thumbs and the
 * two number inputs move. Each update clamps the bound that moved so that the
 * bounds stay at least 50 apart; no input is ever rejected.
 */
module PriceFilter {
  import opened Wrappers
  import opened Text

  const MaxPrice: int := 500
  const MinSpread: int := 50

  /** `currentMin` and `currentMax`. */
  datatype Range = Range(currentMin: int, currentMax: int)

  /** The constructor's state: the full range 0 to 500. */
  const Initial: Range := Range(0, MaxPrice)

  /** The bounds are at least 50 apart and the lower one is not negative. */
  predicate WellSpread(r: Range) {
    r.currentMin >= 0 && r.currentMax - r.currentMin >= MinSpread
  }

  datatype Thumb = MinThumb | MaxThumb

  /** Mouse position to price: the percentage is clamped to [0, 100], then `Math.round(percent / 100 * maxPrice)`. */
  function DragValue(percent: real): (v: int)
    ensures 0 <= v <= MaxPrice
    ensures percent <= 0.0 ==> v == 0
    ensures percent >= 100.0 ==> v == MaxPrice
  {
    var p := if percent < 0.0 then 0.0 else if percent > 100.0 then 100.0 else percent;
    (p / 100.0 * MaxPrice as real + 0.5).Floor
  }

  /**
   * A mouse move while a thumb is held: the min thumb takes the value but
   * stops 50 below the max; the max thumb takes it but stops 50 above the min.
   */
  function Drag(r: Range, dragging: Option<Thumb>, v: int): (s: Range)
    ensures dragging.None? ==> s == r
    ensures dragging == Some(MinThumb) ==>
      && s.currentMax == r.currentMax
      && s.currentMin <= v && s.currentMin <= r.currentMax - MinSpread
      && (s.currentMin == v || s.currentMin == r.currentMax - MinSpread)
    ensures dragging == Some(MaxThumb) ==>
      && s.currentMin == r.currentMin
      && s.currentMax >= v && s.currentMax >= r.currentMin + MinSpread
      && (s.currentMax == v || s.currentMax == r.currentMin + MinSpread)
  {
    match dragging
    case None => r
    case Some(MinThumb) => r.(currentMin := Min(v, r.currentMax - MinSpread))
    case Some(MaxThumb) => r.(currentMax := Max(v, r.currentMin + MinSpread))
  }

  /**
   * The min input's change handler: `parseInt` of the text, with NaN read as
   * 0, clamped into [0, currentMax - 50].
   */
  function InputMin(r: Range, text: string): (s: Range)
    ensures s.currentMax == r.currentMax
    ensures s.currentMin >= 0
    ensures r.currentMax >= MinSpread ==> s.currentMin <= r.currentMax - MinSpread
    ensures Text.ParseInt(text).None? ==> s.currentMin == 0
    ensures var p := Text.ParseInt(text); p.Some? && 0 <= p.value <= r.currentMax - MinSpread ==> s.currentMin == p.value
    ensures var p := Text.ParseInt(text); p.Some? && p.value < 0 ==> s.currentMin == 0
    ensures var p := Text.ParseInt(text); p.Some? && p.value > r.currentMax - MinSpread ==>
      s.currentMin == Max(0, r.currentMax - MinSpread)
  {
    var parsed := Text.ParseInt(text).GetOr(0);
    r.(currentMin := Max(0, Min(parsed, r.currentMax - MinSpread)))
  }

  /**
   * The max input's change handler: `parseInt` of the text, with NaN and 0
   * read as 500, raised to at least currentMin + 50. Nothing caps it at 500.
   */
  function InputMax(r: Range, text: string): (s: Range)
    ensures s.currentMin == r.currentMin
    ensures s.currentMax >= r.currentMin + MinSpread
    ensures Text.ParseInt(text) in {None, Some(0)} ==> s.currentMax == Max(r.currentMin + MinSpread, MaxPrice)
    ensures var p := Text.ParseInt(text); p.Some? && p.value != 0 && p.value >= r.currentMin + MinSpread ==> s.currentMax == p.value
    ensures var p := Text.ParseInt(text); p.Some? && p.value != 0 && p.value < r.currentMin + MinSpread ==>
      s.currentMax == r.currentMin + MinSpread
  {
    var parsed := match Text.ParseInt(text)
      case None => MaxPrice
      case Some(x) => if x == 0 then MaxPrice else x;
    r.(currentMax := Max(r.currentMin + MinSpread, parsed))
  }

  /** The filter: its bounds and which thumb, if any, the mouse holds. */
  datatype Filter = Filter(range: Range, dragging: Option<Thumb>)

  /** What the page reports to the filter. */
  datatype Event =
    | MouseDown(thumb: Thumb)
    | MouseUp
    | MouseMove(percent: real)
    | MinChanged(text: string)
    | MaxChanged(text: string)

  /**
   * One event: a mouse-down takes hold of a thumb and a mouse-up lets go,
   * neither moving a bound; a move shifts a bound only while a thumb is
   * held; a typed value moves its own bound and leaves the hold alone.
   */
  function Step(f: Filter, e: Event): (g: Filter)
    ensures e.MouseDown? ==> g.dragging == Some(e.thumb) && g.range == f.range
    ensures e.MouseUp? ==> g.dragging.None? && g.range == f.range
    ensures !e.MouseDown? && !e.MouseUp? ==> g.dragging == f.dragging
    ensures e.MouseMove? && f.dragging.None? ==> g == f
    ensures e.MinChanged? ==> g.range.currentMax == f.range.currentMax
    ensures e.MaxChanged? ==> g.range.currentMin == f.range.currentMin
    ensures e.MouseMove? ==> g.range == Drag(f.range, f.dragging, DragValue(e.percent))
    ensures e.MinChanged? ==> g.range == InputMin(f.range, e.text)
    ensures e.MaxChanged? ==> g.range == InputMax(f.range, e.text)
  {
    match e
    case MouseDown(t) => f.(dragging := Some(t))
    case MouseUp => f.(dragging := None)
    case MouseMove(p) => f.(range := Drag(f.range, f.dragging, DragValue(p)))
    case MinChanged(t) => f.(range := InputMin(f.range, t))
    case MaxChanged(t) => f.(range := InputMax(f.range, t))
  }

  /** A sequence of events, in order. Mouse moves and releases with no thumb held leave the filter as it was. */
  function Run(f: Filter, events: seq<Event>): (g: Filter)
    ensures events == [] ==> g == f
    ensures f.dragging.None? && (forall i :: 0 <= i < |events| ==> events[i].MouseMove? || events[i].MouseUp?) ==> g == f
    decreases |events|
  {
    if events == [] then f else Run(Step(f, events[0]), events[1..])
  }

  /** Every event keeps the bounds at least 50 apart. */
  lemma StepKeepsSpread(f: Filter, e: Event)
    requires WellSpread(f.range)
    ensures WellSpread(Step(f, e).range)
  {
  }

  /** From the initial full range, no sequence of drags and typed values brings the bounds closer than 50. */
  lemma {:induction false} RunKeepsSpread(f: Filter, events: seq<Event>)
    requires WellSpread(f.range)
    ensures WellSpread(Run(f, events).range)
    decreases |events|
  {
    if events != [] {
      StepKeepsSpread(f, events[0]);
      RunKeepsSpread(Step(f, events[0]), events[1..]);
    }
  }

  /** Repeating a drag update changes nothing: re-registered handlers firing together agree with a single one. */
  lemma DragIdempotent(r: Range, t: Option<Thumb>, v: int)
    ensures Drag(Drag(r, t, v), t, v) == Drag(r, t, v)
  {
  }

  /** Typing 1000 into the max input raises the bound above the slider's 500. */
  lemma MaxNotCapped()
    ensures InputMax(Initial, "1000").currentMax == 1000
  {
    var t := "1000";
    assert Text.TrimStart(t) == t && Text.SignedBody(t) == t;
    assert Text.AllDigits(t);
    Text.DigitPrefixOfDigits(t);
    assert t[..3] == "100" && "100"[..2] == "10" && "10"[..1] == "1" && "1"[..0] == "";
    assert Text.DigitsValue("1") == 1;
    assert Text.DigitsValue("10") == 10;
    assert Text.DigitsValue("100") == 100;
    assert Text.DigitsValue(t) == 1000;
  }
}

=== FILE: selection.dfy ===
/**
 * The single-selection primitive that the widgets re-implement by hand
 * ("clear every sibling, then activate the target"), and the modular
 * next/previous index arithmetic of the sliders, the gallery and the
 * testimonial rotator, with JavaScript's `%` and NaN written out.
 */
module Selection {

  /** Number of set flags. */
  function CountTrue(s: seq<bool>): nat {
    if s == [] then 0 else (if s[0] then 1 else 0) + CountTrue(s[1..])
  }

  /** Flag `k` is set and no other is. */
  predicate OnlyAt(s: seq<bool>, k: int) {
    0 <= k < |s| && forall j :: 0 <= j < |s| ==> (s[j] <==> j == k)
  }

  predicate AtMostOne(s: seq<bool>) {
    forall i, j :: 0 <= i < |s| && 0 <= j < |s| && s[i] && s[j] ==> i == j
  }

  predicate NoneSet(s: seq<bool>) {
    forall j :: 0 <= j < |s| ==> !s[j]
  }

  /** `n` elements after `el.classList.toggle('active', i === k)` ran over each of them. */
  function Select(n: nat, k: int): (r: seq<bool>)
    ensures |r| == n
    ensures 0 <= k < n ==> OnlyAt(r, k)
    ensures !(0 <= k < n) ==> NoneSet(r)
  {
    seq(n, j => j == k)
  }

  /** `n` elements after `el.classList.remove('active')` ran over each of them. */
  function ClearAll(n: nat): (r: seq<bool>)
    ensures |r| == n && NoneSet(r)
  {
    seq(n, j => false)
  }

  lemma {:induction false} NoneSetCountsZero(s: seq<bool>)
    ensures NoneSet(s) <==> CountTrue(s) == 0
  {
    if s != [] {
      NoneSetCountsZero(s[1..]);
      if NoneSet(s[1..]) && !s[0] {
        forall j | 0 <= j < |s| ensures !s[j] {
          if j > 0 { assert s[j] == s[1..][j - 1]; }
        }
      }
    }
  }

  /** A single active flag is what the "exactly one selected" widgets promise. */
  lemma {:induction false} OnlyAtCountsOne(s: seq<bool>, k: int)
    requires OnlyAt(s, k)
    ensures CountTrue(s) == 1
  {
    if k == 0 {
      NoneSetCountsZero(s[1..]);
    } else {
      OnlyAtCountsOne(s[1..], k - 1);
    }
  }

  /** "At most one open" and "at most one flag counted" are the same statement. */
  lemma {:induction false} AtMostOneIffCount(s: seq<bool>)
    ensures AtMostOne(s) <==> CountTrue(s) <= 1
  {
    if s != [] {
      AtMostOneIffCount(s[1..]);
      NoneSetCountsZero(s[1..]);
      if s[0] && AtMostOne(s) {
        forall j | 0 <= j < |s[1..]| ensures !s[1..][j] {
          assert s[j + 1] == s[1..][j];
        }
      }
      if AtMostOne(s) {
        forall i, j | 0 <= i < |s[1..]| && 0 <= j < |s[1..]| && s[1..][i] && s[1..][j]
          ensures i == j
        {
          assert s[i + 1] && s[j + 1];
        }
      }
      if CountTrue(s) <= 1 {
        forall i, j | 0 <= i < |s| && 0 <= j < |s| && s[i] && s[j] ensures i == j {
          if i > 0 { assert s[1..][i - 1] == s[i]; }
          if j > 0 { assert s[1..][j - 1] == s[j]; }
        }
      }
    }
  }

  /** JavaScript's `%` on integers: truncating division, so the remainder takes the dividend's sign. */
  function JsRem(a: int, n: int): (r: int)
    requires n > 0
    ensures a >= 0 ==> r == a % n
    ensures a < 0 ==> -n < r <= 0
  {
    if a >= 0 then a % n else -((-a) % n)
  }

  /** A position as JavaScript computes it: an integer, or NaN after `% 0`. */
  datatype Index = At(i: int) | NaN

  /** `(current + 1) % length`. */
  function Next(cur: Index, n: nat): (r: Index)
    ensures r.NaN? <==> n == 0 || cur.NaN?
    ensures cur.At? && 0 <= cur.i < n ==> r.At? && 0 <= r.i < n
  {
    if n == 0 || cur.NaN? then NaN else At(JsRem(cur.i + 1, n))
  }

  /** `(current - 1 + length) % length`. */
  function Prev(cur: Index, n: nat): (r: Index)
    ensures r.NaN? <==> n == 0 || cur.NaN?
    ensures cur.At? && 0 <= cur.i < n ==> r.At? && 0 <= r.i < n
  {
    if n == 0 || cur.NaN? then NaN else At(JsRem(cur.i - 1 + n, n))
  }

  lemma MulAtLeast(x: int, n: int)
    requires x >= 1 && n > 0
    ensures x * n >= n
  {
  }

  /** `%` is determined by any quotient/remainder split of the dividend. */
  lemma ModUnique(a: int, n: int, q: int, r: int)
    requires n > 0 && 0 <= r < n && a == q * n + r
    ensures a % n == r
  {
    var q', r' := a / n, a % n;
    assert (q - q') * n == r' - r;
    if q > q' {
      MulAtLeast(q - q', n);
    } else if q < q' {
      MulAtLeast(q' - q, n);
    }
  }

  lemma ModBelow(a: int, n: int)
    requires 0 <= a < n
    ensures a % n == a
  {
    ModUnique(a, n, 0, a);
  }

  lemma ModAtLength(n: int)
    requires n > 0
    ensures n % n == 0
  {
    ModUnique(n, n, 1, 0);
  }

  lemma ModShift(a: int, n: int)
    requires 0 <= a < n
    ensures (a + n) % n == a
  {
    ModUnique(a + n, n, 1, a);
  }

  /** Stepping back undoes stepping forward, and the other way round, on every in-range index. */
  lemma PrevNextInverse(i: int, n: nat)
    requires 0 <= i < n
    ensures Prev(Next(At(i), n), n) == At(i)
    ensures Next(Prev(At(i), n), n) == At(i)
  {
    var j := if i + 1 < n then i + 1 else 0;
    if i + 1 < n { ModBelow(i + 1, n); } else { ModAtLength(n); }
    assert Next(At(i), n) == At(j);
    if j == 0 { ModBelow(n - 1, n); } else { ModShift(j - 1, n); }
    assert Prev(At(j), n) == At(i);
    var k := if i == 0 then n - 1 else i - 1;
    if i == 0 { ModBelow(n - 1, n); } else { ModShift(i - 1, n); }
    assert Prev(At(i), n) == At(k);
    if k + 1 < n { ModBelow(k + 1, n); } else { ModAtLength(n); }
    assert Next(At(k), n) == At(i);
  }

  /** `k` successive steps forward. */
  function Advance(cur: Index, n: nat, k: nat): Index {
    if k == 0 then cur else Next(Advance(cur, n, k - 1), n)
  }

  /** `k` steps forward from `i` land on `(i + k) mod n`; in particular `n` steps come back to `i`. */
  lemma {:induction false} AdvanceIsModular(i: int, n: nat, k: nat)
    requires 0 <= i < n
    ensures Advance(At(i), n, k) == At((i + k) % n)
  {
    if k > 0 {
      AdvanceIsModular(i, n, k - 1);
      var a := i + k - 1;
      var p := a % n;
      assert Advance(At(i), n, k) == Next(At(p), n);
      assert Next(At(p), n) == At((p + 1) % n);
      ModSucc(a, n);
    } else {
      ModBelow(i, n);
    }
  }

  lemma ModSucc(a: nat, n: nat)
    requires n > 0
    ensures (a % n + 1) % n == (a + 1) % n
  {
    var q, r := a / n, a % n;
    if r + 1 < n {
      ModBelow(r + 1, n);
      ModUnique(a + 1, n, q, r + 1);
    } else {
      ModAtLength(n);
      ModUnique(a + 1, n, q + 1, 0);
    }
  }
}

=== FILE: text.dfy ===
/**
 * String primitives of the JavaScript runtime that the front end relies on:
 * the `\s` character class and `trim`, decimal rendering of integers
 * (`String(n)`, template literals) and decimal `parseInt`.
 */
module Text {
  import opened Wrappers

  /** JavaScript's WhiteSpace and LineTerminator code points: what `\s` matches and `trim` strips. */
  predicate IsJsWhitespace(c: char) {
    var x := c as int;
    if x <= 0x20 then x == 0x20 || 0x09 <= x <= 0x0D
    else if x < 0xA0 then false
    else x == 0xA0 || x == 0x1680 || 0x2000 <= x <= 0x200A || x == 0x2028 || x == 0x2029
         || x == 0x202F || x == 0x205F || x == 0x3000 || x == 0xFEFF
  }

  predicate IsDigit(c: char) {
    '0' <= c <= '9'
  }

  predicate AllDigits(s: string) {
    forall i :: 0 <= i < |s| ==> IsDigit(s[i])
  }

  predicate AllWhitespace(s: string) {
    forall i :: 0 <= i < |s| ==> IsJsWhitespace(s[i])
  }

  /** The position of the first non-whitespace character at or after `i`, or `|s|` when there is none. */
  function SkipBlank(s: string, i: nat): (k: nat)
    requires i <= |s|
    ensures i <= k <= |s|
    ensures forall j :: i <= j < k ==> IsJsWhitespace(s[j])
    ensures k < |s| ==> !IsJsWhitespace(s[k])
    decreases |s| - i
  {
    if i < |s| && IsJsWhitespace(s[i]) then SkipBlank(s, i + 1) else i
  }

  /** The end of `s[..e]` once its trailing whitespace is dropped, going no lower than `lo`. */
  function SkipBlankBack(s: string, lo: nat, e: nat): (k: nat)
    requires lo <= e <= |s|
    ensures lo <= k <= e
    ensures forall j :: k <= j < e ==> IsJsWhitespace(s[j])
    ensures k > lo ==> !IsJsWhitespace(s[k - 1])
    decreases e
  {
    if e > lo && IsJsWhitespace(s[e - 1]) then SkipBlankBack(s, lo, e - 1) else e
  }

  /** Drops leading whitespace. */
  function TrimStart(s: string): (r: string)
    ensures |r| <= |s| && r == s[|s| - |r|..]
    ensures r == [] || !IsJsWhitespace(r[0])
    ensures AllWhitespace(s[..|s| - |r|])
  {
    s[SkipBlank(s, 0)..]
  }

  /** `String.prototype.trim`: the infix of `s` left after stripping whitespace at both ends. */
  function Trim(s: string): (r: string)
    ensures var k := |s| - |TrimStart(s)|;
            k + |r| <= |s| && r == s[k..k + |r|]
            && AllWhitespace(s[..k]) && AllWhitespace(s[k + |r|..])
    ensures r == [] || (!IsJsWhitespace(r[0]) && !IsJsWhitespace(r[|r| - 1]))
    ensures r == [] <==> AllWhitespace(s)
  {
    var k := SkipBlank(s, 0);
    var e := SkipBlankBack(s, k, |s|);
    TrimInfix(s, k, e);
    assert |TrimStart(s)| == |s| - k;
    assert s[k..e][..] == s[k..k + (e - k)];
    s[k..e]
  }

  /** The slice between the two scans has no whitespace at its ends and only whitespace around it. */
  lemma TrimInfix(s: string, k: nat, e: nat)
    requires k == SkipBlank(s, 0) && e == SkipBlankBack(s, k, |s|)
    ensures AllWhitespace(s[..k]) && AllWhitespace(s[e..])
    ensures k < e ==> !IsJsWhitespace(s[k]) && !IsJsWhitespace(s[e - 1])
    ensures k == e <==> AllWhitespace(s)
  {
    assert forall j :: 0 <= j < k ==> s[..k][j] == s[j];
    assert forall j :: 0 <= j < |s| - e ==> s[e..][j] == s[e + j];
    if k < |s| {
      var blank := IsJsWhitespace(s[k]);
      assert !blank;
      assert e <= k ==> blank;
      assert AllWhitespace(s) ==> blank;
    }
  }

  /** A character outside the Basic Multilingual Plane is a surrogate pair in UTF-16, two code units. */
  function Utf16Units(c: char): (n: nat)
    ensures n == 1 || n == 2
    ensures n == 2 <==> c as int >= 0x1_0000
  {
    if c as int < 0x1_0000 then 1 else 2
  }

  /**
   * A JavaScript string's `length`: its UTF-16 code units, which is the
   * number of characters plus one per character beyond U+FFFF.
   */
  function Utf16Length(s: string): (n: nat)
    ensures |s| <= n <= 2 * |s|
    ensures (forall i :: 0 <= i < |s| ==> s[i] as int < 0x1_0000) ==> n == |s|
    ensures (exists i :: 0 <= i < |s| && s[i] as int >= 0x1_0000) ==> n > |s|
  {
    if s == [] then 0
    else
      assert forall i :: 0 <= i < |s[1..]| ==> s[1..][i] == s[i + 1];
      Utf16Units(s[0]) + Utf16Length(s[1..])
  }

  function DigitChar(d: int): (c: char)
    requires 0 <= d < 10
    ensures IsDigit(c)
  {
    ('0' as int + d) as char
  }

  function DigitValue(c: char): (d: int)
    requires IsDigit(c)
    ensures 0 <= d < 10 && DigitChar(d) == c
  {
    c as int - '0' as int
  }

  /** Decimal digits of a natural number, most significant first, without leading zeros. */
  function NatDecimal(n: nat): (r: string)
    ensures |r| >= 1 && AllDigits(r)
    ensures |r| == 1 <==> n < 10
    decreases n
  {
    if n < 10 then [DigitChar(n)] else NatDecimal(n / 10) + [DigitChar(n % 10)]
  }

  /** An integer as JavaScript writes it in a template literal or `textContent`. */
  function Decimal(n: int): (r: string)
    ensures |r| >= 1
  {
    if n < 0 then "-" + NatDecimal(-n) else NatDecimal(n)
  }

  /** The value of a string of decimal digits. */
  function DigitsValue(d: string): nat
    requires AllDigits(d)
  {
    if d == [] then 0 else DigitsValue(d[..|d| - 1]) * 10 + DigitValue(d[|d| - 1])
  }

  /** The longest prefix of `s` made of decimal digits. */
  function DigitPrefix(s: string): (r: string)
    ensures |r| <= |s| && r == s[..|r|] && AllDigits(r)
    ensures |r| == |s| || !IsDigit(s[|r|])
  {
    if |s| > 0 && IsDigit(s[0]) then [s[0]] + DigitPrefix(s[1..]) else []
  }

  /**
   * `parseInt(s)` in base 10: skip leading whitespace, read an optional sign,
   * then the longest run of digits; `None` stands for NaN (no digit at all).
   */
  function ParseInt(s: string): (r: Option<int>)
    ensures r.None? <==> DigitPrefix(SignedBody(TrimStart(s))) == []
  {
    var t := TrimStart(s);
    var d := DigitPrefix(SignedBody(t));
    if d == [] then None
    else if |t| > 0 && t[0] == '-' then Some(0 - DigitsValue(d))
    else Some(DigitsValue(d))
  }

  /** What follows an optional leading sign. */
  function SignedBody(t: string): string {
    if |t| > 0 && (t[0] == '-' || t[0] == '+') then t[1..] else t
  }

  lemma {:induction false} DigitsOfNatDecimal(n: nat)
    ensures DigitsValue(NatDecimal(n)) == n
    decreases n
  {
    if n >= 10 {
      var p := NatDecimal(n / 10);
      var r := NatDecimal(n);
      assert r == p + [DigitChar(n % 10)];
      assert r[..|r| - 1] == p;
      DigitsOfNatDecimal(n / 10);
    }
  }

  lemma DigitPrefixOfDigits(s: string)
    requires AllDigits(s)
    ensures DigitPrefix(s) == s
  {
  }

  /** Writing a count into `textContent` and parsing it back with `parseInt` yields the count. */
  lemma {:induction false} ParseIntDecimal(n: int)
    ensures ParseInt(Decimal(n)) == Some(n)
  {
    var s := Decimal(n);
    var m: nat := if n < 0 then -n else n;
    var digits := NatDecimal(m);
    assert TrimStart(s) == s;
    assert SignedBody(s) == digits;
    DigitPrefixOfDigits(digits);
    DigitsOfNatDecimal(m);
  }

  /** The rendered count is the string "1" exactly when the count is 1. */
  lemma DecimalIsOne(n: int)
    ensures Decimal(n) == "1" <==> n == 1
  {
    ParseIntDecimal(n);
    ParseIntDecimal(1);
    assert Decimal(1) == "1";
  }

  /** Position of the first occurrence of `c`. */
  function IndexOfChar(s: string, c: char): (i: nat)
    requires c in s
    ensures i < |s| && s[i] == c && c !in s[..i]
  {
    if s[0] == c then 0
    else
      assert c in s[1..] by { var k :| 0 <= k < |s| && s[k] == c; assert s[1..][k - 1] == c; }
      1 + IndexOfChar(s[1..], c)
  }

  /** The first occurrence of `c` is the position where it occurs with no earlier one. */
  lemma {:induction false} IndexOfCharAt(s: string, c: char, k: nat)
    requires k < |s| && s[k] == c && c !in s[..k]
    ensures IndexOfChar(s, c) == k
  {
    if k > 0 {
      assert s[..k][0] == s[0];
      assert s[1..][..k - 1] == s[1..k];
      assert forall j :: 0 <= j < k - 1 ==> s[1..k][j] == s[..k][j + 1];
      IndexOfCharAt(s[1..], c, k - 1);
    }
  }

  function Min(a: int, b: int): int { if a <= b then a else b }
  function Max(a: int, b: int): int { if a >= b then a else b }
}

=== FILE: utils.dfy ===
/**
 * Helpers of the utility module: the star-rating row and HTML escaping.
 * (The utility `calculateNights` is the same computation on day numbers as
 * `Booking.CalculateNights`; `validateEmail` and `validatePhone` are in
 * `Patterns`.)
 */
module Utils {

  /* ---------------- star ratings ---------------- */

  datatype Star = Full | Half | Empty

  /** The icon markup for one star. */
  function Icon(s: Star): string {
    match s
    case Full => "<i class=\"fas fa-star\"></i>"
    case Half => "<i class=\"fas fa-star-half-alt\"></i>"
    case Empty => "<i class=\"far fa-star\"></i>"
  }

  /** `Math.floor` on a real rating. */
  function Floor(x: real): int {
    x.Floor
  }

  /** `Math.ceil`, the least integer not below `x`. */
  function Ceil(x: real): (n: int)
    ensures x <= n as real < x + 1.0
    ensures n == Floor(x) || n == Floor(x) + 1
  {
    if x == x.Floor as real then x.Floor else x.Floor + 1
  }

  /** `rating % 1 !== 0`: the rating is not a whole number (negative ones included). */
  predicate HasFraction(x: real) {
    x != x.Floor as real
  }

  /** A `for (i = 0; i < n; i++)` loop of one icon: nothing when `n <= 0`. */
  function Repeat(s: Star, n: int): (r: seq<Star>)
    ensures |r| == if n > 0 then n else 0
    ensures forall i :: 0 <= i < |r| ==> r[i] == s
  {
    if n <= 0 then [] else Repeat(s, n - 1) + [s]
  }

  /** The icons `generateStars(rating, maxStars)` emits, in order. */
  function StarRow(rating: real, maxStars: int): seq<Star> {
    Repeat(Full, Floor(rating)) + (if HasFraction(rating) then [Half] else []) + Repeat(Empty, maxStars - Ceil(rating))
  }

  function Markup(stars: seq<Star>): string {
    if stars == [] then "" else Markup(stars[..|stars| - 1]) + Icon(stars[|stars| - 1])
  }

  function Count(stars: seq<Star>, s: Star): nat {
    if stars == [] then 0 else Count(stars[..|stars| - 1], s) + (if stars[|stars| - 1] == s then 1 else 0)
  }

  /**
   * `generateStars`: the full stars, then one half star when the rating has
   * a fraction, then `maxStars - ceil(rating)` empty stars, each loop
   * emitting nothing when its bound is not positive.
   */
  method GenerateStars(rating: real, maxStars: int) returns (html: string)
    ensures html == Markup(StarRow(rating, maxStars))
  {
    var full := Floor(rating);
    html := EmitIcons(Full, full);
    var half: seq<Star> := [];
    if HasFraction(rating) {
      html := html + Icon(Half);
      half := [Half];
      MarkupSnoc(Repeat(Full, full), Half);
    } else {
      assert Repeat(Full, full) + half == Repeat(Full, full);
    }
    assert html == Markup(Repeat(Full, full) + half);
    assert StarRow(rating, maxStars) == Repeat(Full, full) + half + Repeat(Empty, maxStars - Ceil(rating));
    var emptyStars := EmitIcons(Empty, maxStars - Ceil(rating));
    MarkupConcat(Repeat(Full, full) + half, Repeat(Empty, maxStars - Ceil(rating)));
    html := html + emptyStars;
  }

  /** One `for (let i = 0; i < n; i++) starsHTML += icon` loop. */
  method EmitIcons(s: Star, n: int) returns (html: string)
    ensures html == Markup(Repeat(s, n))
  {
    html := "";
    var i := 0;
    while i < n
      invariant 0 <= i && (n > 0 ==> i <= n) && (n <= 0 ==> i == 0)
      invariant html == Markup(Repeat(s, i))
    {
      MarkupSnoc(Repeat(s, i), s);
      html := html + Icon(s);
      i := i + 1;
    }
  }

  lemma {:induction false} MarkupConcat(a: seq<Star>, b: seq<Star>)
    ensures Markup(a + b) == Markup(a) + Markup(b)
    decreases |b|
  {
    if b == [] {
      assert a + b == a;
    } else {
      var b', x := b[..|b| - 1], b[|b| - 1];
      assert b == b' + [x];
      assert a + b == (a + b') + [x];
      MarkupSnoc(a + b', x);
      MarkupSnoc(b', x);
      MarkupConcat(a, b');
      Associate(Markup(a), Markup(b'), Icon(x));
    }
  }

  lemma Associate(p: string, q: string, r: string)
    ensures p + q + r == p + (q + r)
  {
  }

  lemma MarkupSnoc(stars: seq<Star>, s: Star)
    ensures Markup(stars + [s]) == Markup(stars) + Icon(s)
  {
    assert (stars + [s])[..|stars|] == stars;
  }

  lemma {:induction false} CountConcat(a: seq<Star>, b: seq<Star>, s: Star)
    ensures Count(a + b, s) == Count(a, s) + Count(b, s)
    decreases |b|
  {
    if b == [] {
      assert a + b == a;
    } else {
      assert (a + b)[..|a + b| - 1] == a + b[..|b| - 1];
      CountConcat(a, b[..|b| - 1], s);
    }
  }

  lemma {:induction false} CountRepeat(s: Star, t: Star, n: int)
    ensures Count(Repeat(s, n), t) == if s == t && n > 0 then n else 0
    decreases if n > 0 then n else 0
  {
    if n > 0 {
      CountRepeat(s, t, n - 1);
    }
  }

  /**
   * For a rating between 0 and `maxStars`, the row has exactly `maxStars`
   * icons: `floor(rating)` full, one half exactly when the rating has a
   * fraction, and the rest empty.
   */
  lemma StarsInRange(rating: real, maxStars: int)
    requires 0.0 <= rating <= maxStars as real
    ensures var row := StarRow(rating, maxStars);
      && |row| == maxStars
      && Count(row, Full) == Floor(rating)
      && Count(row, Half) == (if HasFraction(rating) then 1 else 0)
      && Count(row, Empty) == maxStars - Ceil(rating)
  {
    var full, empty := Floor(rating), maxStars - Ceil(rating);
    var half: seq<Star> := if HasFraction(rating) then [Half] else [];
    RatingBounds(rating, maxStars);
    RowCount(Repeat(Full, full), half, Repeat(Empty, empty), Full);
    RowCount(Repeat(Full, full), half, Repeat(Empty, empty), Half);
    RowCount(Repeat(Full, full), half, Repeat(Empty, empty), Empty);
    CountRepeat(Full, Full, full);
    CountRepeat(Full, Half, full);
    CountRepeat(Full, Empty, full);
    CountRepeat(Empty, Full, empty);
    CountRepeat(Empty, Half, empty);
    CountRepeat(Empty, Empty, empty);
    CountRepeat(Half, Full, |half|);
    CountRepeat(Half, Half, |half|);
    CountRepeat(Half, Empty, |half|);
    assert half == Repeat(Half, |half|);
  }

  /** A rating in range has a non-negative floor, a ceiling within the maximum, and a ceiling one above the floor exactly when it has a fraction. */
  lemma RatingBounds(rating: real, maxStars: int)
    requires 0.0 <= rating <= maxStars as real
    ensures 0 <= Floor(rating) && Ceil(rating) <= maxStars
    ensures Ceil(rating) == Floor(rating) + (if HasFraction(rating) then 1 else 0)
  {
  }

  /** Counts of the three runs of a row add up. */
  lemma RowCount(a: seq<Star>, b: seq<Star>, c: seq<Star>, t: Star)
    ensures Count(a + b + c, t) == Count(a, t) + Count(b, t) + Count(c, t)
  {
    CountConcat(a, b, t);
    CountConcat(a + b, c, t);
  }

  /** The empty-star loop never goes negative, so a rating above the maximum shows more icons than `maxStars`. */
  lemma StarsOverflow(rating: real, maxStars: int)
    requires rating > maxStars as real && maxStars >= 0
    ensures |StarRow(rating, maxStars)| > maxStars
  {
    assert Floor(rating) >= maxStars;
  }

  /** A negative half rating still gets a half star and a full row of empty stars. */
  lemma NegativeHalfStar()
    ensures StarRow(-0.5, 5) == [Half, Empty, Empty, Empty, Empty, Empty]
  {
    assert Floor(-0.5) == -1;
    assert Ceil(-0.5) == 0;
    assert Repeat(Empty, 5) == [Empty, Empty, Empty, Empty, Empty];
  }

  /* ---------------- HTML escaping ---------------- */

  /** A character `escapeHtml` replaces. */
  predicate Special(c: char) {
    c == '&' || c == '<' || c == '>' || c == '"' || c == '\''
  }

  /** The entity `escapeHtml` writes for one character. */
  function EscapeChar(c: char): (r: string)
    ensures Special(c) ==> |r| >= 4 && r[0] == '&'
    ensures !Special(c) ==> r == [c]
    ensures forall i :: 0 <= i < |r| ==> r[i] != '<' && r[i] != '>' && r[i] != '"' && r[i] != '\''
  {
    match c
    case '&' => "&amp;"
    case '<' => "&lt;"
    case '>' => "&gt;"
    case '"' => "&quot;"
    case '\'' => "&#039;"
    case _ => [c]
  }

  /** `escapeHtml`: every special character replaced by its entity, everything else kept. */
  function EscapeHtml(s: string): (r: string)
    ensures |r| >= |s|
    ensures forall i :: 0 <= i < |r| ==> r[i] != '<' && r[i] != '>' && r[i] != '"' && r[i] != '\''
    ensures (forall i :: 0 <= i < |s| ==> !Special(s[i])) ==> r == s
  {
    if s == [] then [] else EscapeChar(s[0]) + EscapeHtml(s[1..])
  }

  /** The inverse: the five entities turned back into their characters. */
  function UnescapeHtml(r: string): string
    decreases |r|
  {
    if r == [] then []
    else if r[0] != '&' then [r[0]] + UnescapeHtml(r[1..])
    else if |r| >= 5 && r[..5] == "&amp;" then "&" + UnescapeHtml(r[5..])
    else if |r| >= 4 && r[..4] == "&lt;" then "<" + UnescapeHtml(r[4..])
    else if |r| >= 4 && r[..4] == "&gt;" then ">" + UnescapeHtml(r[4..])
    else if |r| >= 6 && r[..6] == "&quot;" then "\"" + UnescapeHtml(r[6..])
    else if |r| >= 6 && r[..6] == "&#039;" then "'" + UnescapeHtml(r[6..])
    else [r[0]] + UnescapeHtml(r[1..])
  }

  lemma UnescapeEntity(c: char, rest: string)
    requires Special(c)
    ensures UnescapeHtml(EscapeChar(c) + rest) == [c] + UnescapeHtml(rest)
  {
    var e := EscapeChar(c);
    var r := e + rest;
    assert r[..|e|] == e;
    assert r[|e|..] == rest;
    if c == '&' {
      assert r[..5] == "&amp;";
    } else if c == '<' {
      assert r[..4] == "&lt;" && r[1] == 'l';
    } else if c == '>' {
      assert r[..4] == "&gt;" && r[1] == 'g';
    } else if c == '"' {
      assert r[..6] == "&quot;" && r[1] == 'q';
    } else {
      assert r[..6] == "&#039;" && r[1] == '#';
    }
  }

  lemma UnescapeChar(c: char, rest: string)
    ensures UnescapeHtml(EscapeChar(c) + rest) == [c] + UnescapeHtml(rest)
  {
    if Special(c) {
      UnescapeEntity(c, rest);
    } else {
      var r := [c] + rest;
      assert r[0] == c && r[1..] == rest;
    }
  }

  /** Escaping loses nothing: unescaping the result gives the text back. */
  lemma {:induction false} UnescapeEscape(s: string)
    ensures UnescapeHtml(EscapeHtml(s)) == s
  {
    if s != [] {
      UnescapeChar(s[0], EscapeHtml(s[1..]));
      UnescapeEscape(s[1..]);
      assert s == [s[0]] + s[1..];
    }
  }

  /** Escaping is not idempotent: an ampersand is escaped again on a second pass. */
  lemma EscapeTwice()
    ensures EscapeHtml("&") == "&amp;"
    ensures EscapeHtml(EscapeHtml("&")) == "&amp;amp;"
  {
    assert EscapeHtml("&") == EscapeChar('&') + EscapeHtml("");
    var a := "&amp;";
    assert EscapeHtml(a) == "&amp;" + EscapeHtml(a[1..]);
    assert EscapeHtml(a[1..]) == "amp;" by {
      assert a[1..] == "amp;";
      assert EscapeHtml("amp;") == "a" + EscapeHtml("mp;");
      assert EscapeHtml("mp;") == "m" + EscapeHtml("p;");
      assert EscapeHtml("p;") == "p" + EscapeHtml(";");
      assert EscapeHtml(";") == ";" + EscapeHtml("");
    }
  }
}

=== FILE: wrappers.dfy ===
/** A value that may be absent: JavaScript's `undefined`, a missing key, or NaN. */
module Wrappers {

  datatype Option<+T> = None | Some(value: T) {

    /** The value, or `default` when absent (JavaScript's `x ?? default`). */
    function GetOr(default: T): T {
      match this
      case Some(v) => v
      case None => default
    }
  }
}
